=== FILE: README.md ===
# SOS backend — a Dafny model

This project models the request handlers of an Express + Supabase backend.
The backend lets employees raise an SOS alert and notifies the company's
emergency contacts and admins. Each route becomes a pure transition on one
immutable `Store`, and returns a status code and the new store.

The store holds:

- users;
- SOS alerts;
- delivery intents (`sos_alert_recipients`);
- in-app notifications;
- directory emergency contacts;
- each user's personal emergency contacts;
- a log of the emails handed to the mail helper;
- an id counter.

The model covers:

- the SOS lifecycle: start, cancel, active lookup, and admin resolve;
- the fan-out to contacts and admins when an alert starts;
- personal contacts, with their single-primary rule;
- notifications;
- the account lifecycle: register, login, email verification, resend;
- the admin edits of users and directory contacts;
- the paged alert list;
- the authentication middleware;
- a router that dispatches every writing route through the middleware gate it is mounted behind.

Some store semantics are taken from the database client:

- `.eq(...)` is a filter over a table (`Store.Where`).
- `.single()` yields a row only when exactly one row matches (`Store.Single`). Zero rows and two or more rows both give null.
- An update followed by `.select().single()` reports success only when it rewrote exactly one row. An update with no column to set rewrites nothing and returns no row, so it fails like an unknown id.
- JavaScript truthiness is explicit. An optional string is truthy when it is present and non-empty. A coordinate is truthy when it is present and non-zero.

Everything the code delegates to another system is a parameter:

- the identity service;
- token signing and verification;
- password hashing and checking;
- random verification tokens;
- the reverse geocoder;
- the clock.

The main results:

- Any sequence of requests, each run to completion before the next, keeps three invariants: every user has at most one active alert, every user has at most one primary personal contact, and every row id is below the id counter (`Server.RunKeepsConsistent`).
- Start, cancel, start gives two distinct alerts. The first is cancelled and the second is the user's only active one.
- Register, verify, login succeeds. Register then login without verifying gets 403.
- A verification link works once.
- Mark-read is idempotent.
- Consecutive pages of the alert list concatenate.
- The bearer-token prefix round-trips.

Some behaviours of the code are easy to misread; the model keeps them as written:

- **Resolve does not check the status.** The update is keyed by id alone, so a cancelled or already resolved alert becomes `resolved` with 200, and its owner is notified (`Admin.ResolveOverwritesCancelled`).
- **No active contacts skips the admin notifications.** The fan-out returns before its admin step when the contact query fails or finds no active contact (`SosLifecycle.StartNotifiesAdmins`).
- **`notification_sent` is never set.** Every delivery intent is written unsent and stays unsent (`SosLifecycle.StartWritesIntents`).
- **Coordinates are optional.** A start without coordinates is accepted and stores null coordinates (`Sos.Start`).
- **Start is not atomic.** The single-active check and the insert are two separate queries. Only sequential requests are modelled, and under that schedule the invariant holds (`Server.RunKeepsConsistent`).

## Model

| member | source | states |
|---|---|---|
| Store.Where | src/routes/sos.js:18-21 | a filtered select holds only rows of the table that satisfy the filter, and every such row |
| Store.SingleWhere | src/routes/sos.js:89-94 | a `.single()` over a filter that yields a row names a row of the table that passes the filter, and every passing row is that row |
| Store.SetTerminalStatus | src/routes/admin.js:191-199 | setting a non-active status never raises any user's count of active alerts, and keeps the number of rows per id |
| Store.NoActiveAlert | src/routes/sos.js:89-96 | with at most one active alert per user, a null `.single()` means the user has no active alert at all |
| Js.ToLowerIdempotent | src/routes/auth.js:35 | a lowercased string has no upper-case ASCII letter, and lowercasing it again changes nothing |
| Sorting.SortDesc | src/routes/notifications.js:14 | `order(..., descending)` returns a permutation of the rows in descending rank |
| Sos.FanOut | src/routes/sos.js:15-81 | with no active contact it returns early and writes nothing, admin notifications included; otherwise it writes one unsent intent per active contact, emails exactly the active contacts with an email, signing as the caller or as "Employee" when the user lookup fails, and gives each admin one notification; alerts, users and contacts are untouched |
| Sos.Start | src/routes/sos.js:84-160 | 409 exactly when the `.single()` check finds the caller's one active alert, and then the store is unchanged; otherwise 201 and exactly one new active alert with a fresh id; the geocoder is consulted only when both coordinates are truthy; the caller's "SOS Activated" notification is written last whatever the fan-out did |
| Sos.Cancel | src/routes/sos.js:163-218 | 404 exactly when there is no single active alert, and then the store is unchanged; otherwise the alert becomes cancelled with resolved-at, the caller is left with no active alert, and one `info` notification is written |
| Sos.GetActive | src/routes/sos.js:221-249 | null exactly when there is no single active alert; otherwise that alert, with a location only when both coordinates are truthy |
| SosLifecycle.StartAppends | src/routes/sos.js:114-124 | a successful start keeps every old alert and appends one |
| SosLifecycle.StartKeepsSingleActive | src/routes/sos.js:89-124 | start keeps at most one active alert per user, and afterwards the new alert is the caller's only active one |
| SosLifecycle.StartTwiceConflicts | src/routes/sos.js:96-98 | a second start by the same user is refused with 409 and changes nothing |
| SosLifecycle.GetActiveAfterStart | src/routes/sos.js:221-244 | after a successful start, the active lookup returns the alert start returned |
| SosLifecycle.GetActiveNullMeansNone | src/routes/sos.js:230-232 | under the invariant, a null answer means the user has no active alert |
| SosLifecycle.CancelKeepsSingleActive | src/routes/sos.js:176-184 | cancel never adds an active alert for anyone |
| SosLifecycle.CancelThenStart | src/routes/sos.js:163-200 | after a successful cancel the caller can start again |
| SosLifecycle.StartCancelStart | src/routes/sos.js:84-218 | start, cancel, start: two distinct alerts, the first cancelled and the second the only active one |
| SosLifecycle.StartWritesIntents | src/routes/sos.js:17-34 | a successful start writes one unsent intent per active contact for the new alert, in the order the table holds the contacts; none when the contact query fails, no contact is active, or the insert fails |
| SosLifecycle.StartEmailsContacts | src/routes/sos.js:36-54 | a successful start emails each active contact with an address, in the order the table holds them, naming the contact, the caller (or "Employee" when the user lookup fails), the location and the alert; none when the fan-out returns early |
| SosLifecycle.StartNotifiesAdmins | src/routes/sos.js:56-74 | a successful start gives each admin one unread `sos` notification about the new alert, with consecutive fresh ids, ahead of the caller's own; none when the fan-out returns early or an admin step fails |
| SosLifecycle.StartIgnoresFanOutFaults | src/routes/sos.js:78-80 | store errors inside the fan-out change neither the status nor the alert start creates |
| Notifications.List | src/routes/notifications.js:8-26 | exactly the caller's notifications, as a permutation, newest first |
| Notifications.MarkRead | src/routes/notifications.js:29-50 | 200 exactly when one notification has both the id and the caller's user id; a missing or foreign one gives 404 and no write; only `is_read` of matching rows changes |
| Notifications.MarkReadIdempotent | src/routes/notifications.js:33-39 | marking read twice gives the same store and status as marking once |
| Notifications.MarkReadScoped | src/routes/notifications.js:35-37 | mark-read never changes another user's notifications |
| Admin.Resolve | src/routes/admin.js:187-221 | 200 exactly when one alert has the id; an unknown id writes nothing, notification included; the alert becomes resolved whatever its status; one `info` notification goes to its owner |
| Admin.ResolveKeepsSingleActive | src/routes/admin.js:191-199 | resolve never raises any user's count of active alerts |
| Admin.ResolveOverwritesCancelled | src/routes/admin.js:191-199 | a cancelled alert is resolved with 200, not refused |
| Admin.PatchUserIdempotent | src/routes/admin.js:60-72 | applying the same user update twice gives the same row as applying it once |
| Admin.UpdateUser | src/routes/admin.js:50-83 | 400 and no write exactly for a role other than employee or admin; a body with no field gives 404 and no write; otherwise 200 exactly when one user has the id; every row with the id is patched and nothing else changes |
| Admin.CreateContact | src/routes/admin.js:244-274 | 400 and no write unless name and role are truthy; otherwise one active contact is appended, with null for an empty email or phone |
| Admin.CreatedContactJoinsFanOut | src/routes/sos.js:18-54 | a new directory contact is among the next fan-out's active contacts, and is emailed exactly when it has an email |
| Admin.UpdateContact | src/routes/admin.js:277-305 | 200 exactly when the body sets a field and one contact has the id; an empty body or an unknown id writes nothing; only rows with the id are patched |
| Admin.DeactivatedContactLeavesFanOut | src/routes/admin.js:287 | a contact set inactive is left out of the next fan-out |
| Admin.Matching | src/routes/admin.js:126-128 | a truthy status keeps exactly the alerts with that status; otherwise all alerts |
| Admin.NewestFirst | src/routes/admin.js:123 | the matching alerts as a permutation, newest first |
| Admin.Range | src/routes/admin.js:124 | positions offset to offset + limit - 1, clipped to the rows there are |
| Admin.ListAlerts | src/routes/admin.js:108-128 | newest first, only matching alerts, and exactly the page size the offset and limit allow, defaulting to 100 and 0 |
| Admin.PagesConcatenate | src/routes/admin.js:124 | the page at offset o of size a, followed by the page at o + a of size b, is the page at o of size a + b |
| Admin.FirstPageHoldsAll | src/routes/admin.js:110-124 | a page from 0 at least as long as the table holds every matching alert |
| Profile.ListContacts | src/routes/profile.js:8-27 | exactly the caller's contacts, as a permutation, primary first and then newest first |
| Profile.CreateContact | src/routes/profile.js:30-69 | 400 and no write exactly when the name is not truthy; otherwise the caller's other contacts lose primary when the new one is primary, and one contact with a fresh id and null for empty fields is appended |
| Profile.CreateKeepsSinglePrimary | src/routes/profile.js:38-55 | create keeps at most one primary per user; a new primary is the caller's only primary |
| Profile.CreateScoped | src/routes/profile.js:40-43 | create never changes another user's contacts |
| Profile.UpdateContact | src/routes/profile.js:72-120 | 404 and no write when the id is missing or not the caller's, or the body sets no field; otherwise the target is patched and, for isPrimary, the caller's other contacts lose primary |
| Profile.UpdateKeepsSinglePrimary | src/routes/profile.js:88-109 | update keeps at most one primary per user; a contact made primary is the caller's only primary |
| Profile.UpdateScoped | src/routes/profile.js:90-94 | update never changes another user's contacts |
| Profile.DeleteContact | src/routes/profile.js:123-153 | 404 and no write when the id is missing or not the caller's; otherwise exactly the rows with that id are removed |
| Profile.DeleteKeepsSinglePrimary | src/routes/profile.js:138-141 | delete never adds a primary |
| Profile.GetProfile | src/routes/profile.js:156-181 | the caller's row when exactly one exists, otherwise 404; no write |
| Profile.UpdateProfile | src/routes/profile.js:184-219 | 400 and no write exactly when no name is given; the caller's rows are renamed; 200 exactly when one exists |
| Profile.UpdateThenGetProfile | src/routes/profile.js:156-219 | after a rename of the caller's one row, the profile read answers 200 with that row, carrying the new name |
| Accounts.Register | src/routes/auth.js:22-100 | 400 without a password or without both email and employee id; 409 and no write when the lowercased email or the employee id is taken; otherwise one unverified `employee` user with a lowercased email and a 24-hour token; a verification email exactly when an email was given, which is also `requiresVerification` |
| Accounts.RegisterKeepsEmailsUnique | src/routes/auth.js:31-41 | register never gives an address a second account |
| Accounts.Login | src/routes/auth.js:103-165 | no write; 400 on the same validation as register; lookup by lowercased email when given, else by employee id; 401 for an unknown user or a wrong password; with the right password, 403 exactly when the user has an email it has not confirmed; 200 names the one matching user |
| Accounts.VerifyEmail | src/routes/auth.js:168-210 | 400 and no write for an unknown or expired token; otherwise the holder is verified and its token and expiry are cleared |
| Accounts.VerifyTwiceFails | src/routes/auth.js:172-195 | a verification link works once; the second use gets 400 |
| Accounts.Resend | src/routes/auth.js:213-260 | 400 without an email or when already verified; 404 for an unknown email; otherwise a new token and 24-hour expiry, emailed to the address as typed |
| Accounts.RegisterThenLoginUnverified | src/routes/auth.js:142-148 | registering with an email and logging in before verifying is refused with 403 |
| Accounts.RegisterByEmployeeIdThenLogin | src/routes/auth.js:122-160 | a user registered without an email logs in at once with the employee id |
| Accounts.RegisterVerifyLogin | src/routes/auth.js:22-165 | register, verify within 24 hours, login: the login succeeds as the registered, now verified user |
| Accounts.ResendThenVerify | src/routes/auth.js:168-245 | the link from a resend verifies the account |
| Gate.BearerToken | src/middleware/auth.js:6-7 | a token exists exactly when the header starts with "Bearer ", and the header is that prefix followed by the token |
| Gate.BearerRoundTrip | src/middleware/auth.js:7 | the token a client puts after "Bearer " is the token read back |
| Gate.RoleOr | src/middleware/auth.js:33 | a stored role, or "employee" when it is empty; never empty |
| Gate.CustomUser | src/middleware/auth.js:26-30 | the stored user matched by the identity's email, when exactly one matches |
| Gate.HostedIdentity | src/middleware/auth.js:20-38 | a matched stored user supplies the id and role; otherwise the identity's id and its metadata role, or "employee"; a null id gives 401 |
| Gate.OwnToken | src/middleware/auth.js:44-59 | the token's subject must be exactly one stored user, whose role is used as stored; otherwise 401 |
| Gate.Authenticate | src/middleware/auth.js:4-78 | 401 without a non-empty bearer token; the identity service first, the own tokens as fallback; every refusal is 401 |
| Gate.RequireAdmin | src/middleware/auth.js:80-91 | passes exactly a principal whose role is "admin"; another role gets 403; a refusal from authentication is kept |
| Gate.HostedIdentityUsesStoredUser | src/middleware/auth.js:32-34 | a stored user matched by email replaces the identity service's id |
| Gate.OwnTokenFallback | src/middleware/auth.js:42-59 | a token the identity service refuses authenticates as the stored user it names |
| Gate.AdminGate | src/middleware/auth.js:80-91 | admin routes admit only role "admin"; 401 means unauthenticated and 403 means authenticated but not admin |
| Server.Handle | src/app.js:47-51 | account routes run without a gate; a refused request writes nothing and gets the gate's code; admin routes run only for admins; the rest run as the authenticated user |
| Server.HandleKeepsConsistent | src/app.js:47-51 | every request keeps at most one active alert and one primary contact per user, and every id below the counter |
| Server.RunKeepsConsistent | src/app.js:47-51 | any sequence of requests keeps the store consistent |
| Server.StartKeepsConsistent | src/routes/sos.js:113-143 | start keeps the invariants, and every row it writes gets a fresh id |
| Server.CancelKeepsConsistent | src/routes/sos.js:176-200 | cancel keeps the invariants |
| Server.ResolveKeepsConsistent | src/routes/admin.js:191-214 | resolve keeps the invariants |
| Server.CreatePersonalContactKeepsConsistent | src/routes/profile.js:38-57 | creating a personal contact keeps the invariants |
| Server.UpdatePersonalContactKeepsConsistent | src/routes/profile.js:88-109 | updating a personal contact keeps the invariants |
| Server.DeletePersonalContactKeepsConsistent | src/routes/profile.js:138-141 | deleting a personal contact keeps the invariants |
| Server.EmptyConsistent | src/routes/sos.js:89-98 | the empty store is consistent |
| Server.PublicIgnoresHeader | src/routes/auth.js:22 | the account routes do not read the Authorization header |
| Server.NoTokenNoWrite | src/middleware/auth.js:9-11 | without a bearer token every protected route answers 401 and writes nothing |
| Server.OnlyAdminsAdminister | src/middleware/auth.js:82-86 | only a principal with role "admin" changes anything through the admin routes |

Helpers with a contract but no row, because the routes that use them carry their meaning: `Store.Single`, `Store.UpdateWhere`, `Store.SetAlertStatus`, `Store.Notify`, `Js.OrNull`, `Js.CoordOrNull`, `Js.OrElse`, `Js.ToLower`, `Sos.View`, `Sos.SenderName`, `Sos.WriteIntents`, `Sos.SendEmails`, `Sos.NotifyAdmins`, `Admin.PatchUser`, `Admin.PatchContact`, `Profile.ClearPrimary`, `Profile.PatchContact`.

## Left out

- Store failures on the main write path are not modelled: the 500 answers of inserts and updates, and thrown exceptions. Only the fan-out's swallowed store errors are modelled, as parameters. Cancel's 500 for a non-unique id is modelled.
- Reads that decide nothing are not modelled: the admin listing of users, one user, one alert, and the directory contacts.
- The two admin deletes, of a user and of a directory contact, are not modelled. They are unconditional deletes by id with no check or answer to model.
- The dashboard statistics route is not modelled. It is count queries plus date arithmetic.
- The CORS options, logging, the health route and the fallback 404 of src/app.js are not modelled. They are server wiring.
- Email delivery is not modelled. src/utils/email.js only logs, so a send is an entry appended to the store's outbox.
- Hashing, token signing and checking, random tokens, the identity service and the geocoder are parameters. They are foreign calls.
- Concurrency is not modelled. Requests run one after another. The code has no atomic guard on start's check and insert, so two concurrent starts could both succeed.
- Coordinates are integers and time is a natural-number millisecond clock. `parseFloat`, `parseInt` and ISO timestamps are not modelled.
- Lowercasing is modelled for ASCII only.
- JSON null and an absent field are both "absent". Most handlers tell only given from absent, so a given null would reach the store as null.
- Admin.UpdateUser: a null `role` fails the role check and gets 400, and a null `email` throws at the lowercasing and gets 500. The model reads both as absent, so it patches the other fields and can answer 200.
- The order among rows with equal sort keys is left open.
- Queries without `.order(...)`, such as the fan-out's contact query, return rows in table order. A database may return them in any order.
- Admin.Resolve: with two or more alerts carrying the id, the model keeps the status write behind the 404. The database rolls it back when `.single()` fails. Ids are primary keys, so the case does not arise there.
- Admin.UpdateUser: with two or more users carrying the id, the model keeps the patch behind the 404, where the database rolls it back. Ids are primary keys.
- Admin.UpdateContact: with two or more contacts carrying the id, the model keeps the patch behind the 404, where the database rolls it back. Ids are primary keys.
- Notifications.MarkRead: with two or more matching notifications, the model keeps the `is_read` write behind the 404, where the database rolls it back. Ids are primary keys.
- Sos.Cancel: with two or more alerts carrying the active alert's id, the model keeps the status write behind the 500, where the database rolls it back. Ids are primary keys.
- Profile.UpdateProfile: with two or more users carrying the id, the model keeps the rename behind the 404, where the database rolls it back. Ids are primary keys.
- The user join on the admin alert list is not modelled. It adds fields, not rows.
- Admin.ListAlerts: `limit` and `offset` are natural numbers. The code's `parseInt` of arbitrary query text, and negative values, are not modelled.
- Gate.Authenticate: errors thrown inside the identity-service branch, which the code also sends to the own-token fallback, are folded into the identity service answering "no user".
- Gate.CustomUser: an identity without an email is taken to match no stored user.

=== FILE: accounts.dfy ===
/** The account routes: register, login, email verification and resending
    the verification email. Password hashing, password checking and the
    random verification token are not modelled; they are passed in. */
module Accounts {
  import opened Wrappers
  import opened Js
  import opened Store

  /** A verification token is valid for 24 hours. */
  const VerificationWindow: nat := 24 * 60 * 60 * 1000

  function EmployeeIdIs(employeeId: string): User -> bool {
    (u: User) => u.employeeId == Some(employeeId)
  }

  /** `users where employee_id = employeeId` */
  function UsersWithEmployeeId(s: Store, employeeId: string): seq<User> {
    Where(s.users, EmployeeIdIs(employeeId))
  }

  function TokenIs(token: string): User -> bool {
    (u: User) => u.verificationToken == Some(token)
  }

  /** `users where verification_token = token`; a cleared token matches nothing. */
  function UsersWithToken(s: Store, token: string): seq<User> {
    Where(s.users, TokenIs(token))
  }

  /** Both register and login demand a password and one of email or employee id. */
  predicate MissingCredentials(email: Option<string>, employeeId: Option<string>, password: Option<string>) {
    (!Truthy(email) && !Truthy(employeeId)) || !Truthy(password)
  }

  /** No two users share an email address. */
  ghost predicate EmailsUnique(s: Store) {
    forall e :: |UsersWithEmail(s, e)| <= 1
  }

  // ---------------------------------------------------------------------
  // Register

  /** The 201 body: the new user and whether it must verify an email first. */
  datatype Registration = Registration(user: User, requiresVerification: bool)

  /** `POST /auth/register`. `hash` stands for the password hasher and
      `token` for the freshly generated verification token. */
  function Register(s: Store, email: Option<string>, password: Option<string>, name: Option<string>,
                    employeeId: Option<string>, hash: string -> string, token: string, now: Millis): (r: Reply<Registration>)
    ensures r.code in {201, 400, 409}
    ensures r.code == 400 <==> MissingCredentials(email, employeeId, password)
    ensures r.code == 409 <==>
              !MissingCredentials(email, employeeId, password) &&
              ((Truthy(email) && |UsersWithEmail(s, ToLower(email.value))| == 1) ||
               (Truthy(employeeId) && |UsersWithEmployeeId(s, employeeId.value)| == 1))
    ensures r.code != 201 ==> r.store == s
    ensures r.store == s.(users := r.store.users, outbox := r.store.outbox, nextId := r.store.nextId)
    ensures r.code == 201 ==>
              r.body.Some? && r.body.value.requiresVerification == Truthy(email) &&
              var u := r.body.value.user;
              r.store.users == s.users + [u] && r.store.nextId == s.nextId + 1 &&
              u.id == s.nextId && u.role == "employee" && !u.emailVerified &&
              u.email == (if Truthy(email) then Some(ToLower(email.value)) else None) &&
              u.employeeId == OrNull(employeeId) && u.name == OrElse(name, "") &&
              u.passwordHash == hash(password.value) &&
              u.verificationToken == Some(token) && u.tokenExpiry == Some(now + VerificationWindow) &&
              u.createdAt == now
    // the verification email goes to the address as typed, and only when there is one
    ensures r.code == 201 ==>
              r.store.outbox == s.outbox + (if Truthy(email) then [VerificationEmail(email.value, token, name)] else [])
  {
    if MissingCredentials(email, employeeId, password) then Reply(400, s, None)
    else if Truthy(email) && Single(UsersWithEmail(s, ToLower(email.value))).Some? then Reply(409, s, None)
    else if Truthy(employeeId) && Single(UsersWithEmployeeId(s, employeeId.value)).Some? then Reply(409, s, None)
    else
      var lowered := if Truthy(email) then Some(ToLower(email.value)) else None;
      var u := User(s.nextId, lowered, OrNull(employeeId), OrElse(name, ""), hash(password.value), false,
                    Some(token), Some(now + VerificationWindow), "employee", now);
      var mail := if Truthy(email) then [VerificationEmail(email.value, token, name)] else [];
      Reply(201, s.(users := s.users + [u], outbox := s.outbox + mail, nextId := s.nextId + 1),
            Some(Registration(u, Truthy(email))))
  }

  /** The users with `e` after a successful register: the old ones, and the
      new user when its stored address is `e`. */
  lemma {:induction false} RegisterUsersWithEmail(s: Store, email: Option<string>, password: Option<string>,
                                                  name: Option<string>, employeeId: Option<string>,
                                                  hash: string -> string, token: string, now: Millis, e: string)
    requires Register(s, email, password, name, employeeId, hash, token, now).code == 201
    ensures var r := Register(s, email, password, name, employeeId, hash, token, now);
            UsersWithEmail(r.store, e) ==
              UsersWithEmail(s, e) + (if r.body.value.user.email == Some(e) then [r.body.value.user] else [])
  {
    var r := Register(s, email, password, name, employeeId, hash, token, now);
    WhereAppend(s.users, [r.body.value.user], EmailIs(e));
  }

  /** Register never gives an address a second account. */
  lemma RegisterKeepsEmailsUnique(s: Store, email: Option<string>, password: Option<string>, name: Option<string>,
                                  employeeId: Option<string>, hash: string -> string, token: string, now: Millis)
    requires EmailsUnique(s)
    ensures EmailsUnique(Register(s, email, password, name, employeeId, hash, token, now).store)
  {
    var r := Register(s, email, password, name, employeeId, hash, token, now);
    if r.code == 201 {
      forall e
        ensures |UsersWithEmail(r.store, e)| <= 1
      {
        RegisterUsersWithEmail(s, email, password, name, employeeId, hash, token, now, e);
        assert |UsersWithEmail(s, e)| <= 1;
      }
    }
  }

  // ---------------------------------------------------------------------
  // Login

  /** The rows login looks the user up in: by lowered email when one is
      given, otherwise by employee id. */
  function LoginCandidates(s: Store, email: Option<string>, employeeId: Option<string>): seq<User>
    requires Truthy(email) || Truthy(employeeId)
  {
    if Truthy(email) then UsersWithEmail(s, ToLower(email.value))
    else UsersWithEmployeeId(s, employeeId.value)
  }

  /** A user with an email address must have confirmed it before logging in. */
  predicate MayLogIn(u: User) {
    !Truthy(u.email) || u.emailVerified
  }

  /** `POST /auth/login`. `verify` stands for the password check against a
      stored hash. The 200 reply carries the user the issued token names. */
  function Login(s: Store, email: Option<string>, employeeId: Option<string>, password: Option<string>,
                 verify: (string, string) -> bool): (r: Reply<User>)
    ensures r.store == s
    ensures r.code in {200, 400, 401, 403}
    ensures r.code == 400 <==> MissingCredentials(email, employeeId, password)
    ensures r.code == 401 <==>
              !MissingCredentials(email, employeeId, password) &&
              (|LoginCandidates(s, email, employeeId)| != 1 ||
               !verify(password.value, LoginCandidates(s, email, employeeId)[0].passwordHash))
    // a right password is refused with 403 exactly when the one matching user has an unconfirmed email
    ensures r.code == 403 <==>
              !MissingCredentials(email, employeeId, password) &&
              |LoginCandidates(s, email, employeeId)| == 1 &&
              verify(password.value, LoginCandidates(s, email, employeeId)[0].passwordHash) &&
              Truthy(LoginCandidates(s, email, employeeId)[0].email) &&
              !LoginCandidates(s, email, employeeId)[0].emailVerified
    ensures r.code == 403 ==> r.body.None?
    ensures r.code == 200 ==>
              r.body.Some? && LoginCandidates(s, email, employeeId) == [r.body.value] &&
              verify(password.value, r.body.value.passwordHash) && MayLogIn(r.body.value) &&
              r.body.value in s.users
    ensures r.code == 200 && Truthy(email) ==> r.body.value.email == Some(ToLower(email.value))
    ensures r.code == 200 && !Truthy(email) ==> r.body.value.employeeId == employeeId
  {
    if MissingCredentials(email, employeeId, password) then Reply(400, s, None)
    else
      match Single(LoginCandidates(s, email, employeeId))
      case None => Reply(401, s, None)
      case Some(u) =>
        if !verify(password.value, u.passwordHash) then Reply(401, s, None)
        else if !MayLogIn(u) then Reply(403, s, None)
        else Reply(200, s, Some(u))
  }

  // ---------------------------------------------------------------------
  // Verify email

  function MarkVerified(u: User): User {
    u.(emailVerified := true, verificationToken := None, tokenExpiry := None)
  }

  /** `new Date(expiry) < new Date()`; a missing expiry is the epoch. */
  predicate Expired(u: User, now: Millis) {
    u.tokenExpiry.GetOr(0) < now
  }

  /** `GET /auth/verify-email/:token` */
  function VerifyEmail(s: Store, token: string, now: Millis): (r: Reply<User>)
    ensures r.code == 200 || r.code == 400
    ensures r.code == 200 <==> |UsersWithToken(s, token)| == 1 && !Expired(UsersWithToken(s, token)[0], now)
    ensures r.code == 400 ==> r.store == s
    ensures r.store == s.(users := r.store.users)
    ensures |r.store.users| == |s.users|
    // every row carrying the token holder's id is marked verified and loses its token
    ensures r.code == 200 ==>
              r.body == Some(UsersWithToken(s, token)[0]) &&
              forall i :: 0 <= i < |s.users| ==>
                r.store.users[i] == if s.users[i].id == r.body.value.id
                                    then s.users[i].(emailVerified := true, verificationToken := None, tokenExpiry := None)
                                    else s.users[i]
  {
    match Single(UsersWithToken(s, token))
    case None => Reply(400, s, None)
    case Some(u) =>
      if Expired(u, now) then Reply(400, s, None)
      else Reply(200, s.(users := UpdateWhere(s.users, UserIdIs(u.id), MarkVerified)), Some(u))
  }

  /** A token works once: after a successful verification the same link is
      refused. */
  lemma VerifyTwiceFails(s: Store, token: string, now: Millis, later: Millis)
    requires VerifyEmail(s, token, now).code == 200
    ensures VerifyEmail(VerifyEmail(s, token, now).store, token, later).code == 400
  {
    var r := VerifyEmail(s, token, now);
    var u := r.body.value;
    forall i | 0 <= i < |r.store.users|
      ensures !TokenIs(token)(r.store.users[i])
    {
    }
    WhereNone(r.store.users, TokenIs(token));
  }

  // ---------------------------------------------------------------------
  // Resend

  function Reissue(token: string, expiry: Millis): User -> User {
    (u: User) => u.(verificationToken := Some(token), tokenExpiry := Some(expiry))
  }

  /** `POST /auth/resend-verification`. `token` is the freshly generated one. */
  function Resend(s: Store, email: Option<string>, token: string, now: Millis): (r: Reply<User>)
    ensures r.code in {200, 400, 404}
    ensures r.code == 404 <==> Truthy(email) && |UsersWithEmail(s, ToLower(email.value))| != 1
    ensures r.code == 200 <==>
              Truthy(email) && |UsersWithEmail(s, ToLower(email.value))| == 1 &&
              !UsersWithEmail(s, ToLower(email.value))[0].emailVerified
    ensures r.code != 200 ==> r.store == s
    ensures r.store == s.(users := r.store.users, outbox := r.store.outbox)
    ensures |r.store.users| == |s.users|
    ensures r.code == 200 ==>
              r.body == Some(UsersWithEmail(s, ToLower(email.value))[0]) &&
              r.store.outbox == s.outbox + [VerificationEmail(email.value, token, Some(r.body.value.name))] &&
              forall i :: 0 <= i < |s.users| ==>
                r.store.users[i] == if s.users[i].id == r.body.value.id
                                    then s.users[i].(verificationToken := Some(token),
                                                     tokenExpiry := Some(now + VerificationWindow))
                                    else s.users[i]
  {
    if !Truthy(email) then Reply(400, s, None)
    else
      match Single(UsersWithEmail(s, ToLower(email.value)))
      case None => Reply(404, s, None)
      case Some(u) =>
        if u.emailVerified then Reply(400, s, None)
        else
          var users := UpdateWhere(s.users, UserIdIs(u.id), Reissue(token, now + VerificationWindow));
          Reply(200, s.(users := users, outbox := s.outbox + [VerificationEmail(email.value, token, Some(u.name))]), Some(u))
  }

  // ---------------------------------------------------------------------
  // Round trips

  /** No user holds `token` yet. */
  predicate TokenFresh(s: Store, token: string) {
    forall i :: 0 <= i < |s.users| ==> s.users[i].verificationToken != Some(token)
  }

  /** After register, the new user is the only one with the token and with
      the stored address. */
  lemma {:induction false} RegisteredAlone(s: Store, email: Option<string>, password: Option<string>,
                                           name: Option<string>, employeeId: Option<string>,
                                           hash: string -> string, token: string, now: Millis)
    requires EmailsUnique(s) && TokenFresh(s, token) && Truthy(email)
    requires Register(s, email, password, name, employeeId, hash, token, now).code == 201
    ensures var r := Register(s, email, password, name, employeeId, hash, token, now);
            UsersWithToken(r.store, token) == [r.body.value.user] &&
            UsersWithEmail(r.store, ToLower(email.value)) == [r.body.value.user]
  {
    var r := Register(s, email, password, name, employeeId, hash, token, now);
    var e := ToLower(email.value);
    assert |UsersWithEmail(s, e)| <= 1;
    RegisterUsersWithEmail(s, email, password, name, employeeId, hash, token, now, e);
    WhereAppend(s.users, [r.body.value.user], TokenIs(token));
    WhereNone(s.users, TokenIs(token));
  }

  /** Registering with an email and logging straight in is refused with 403
      until the address is verified. */
  lemma RegisterThenLoginUnverified(s: Store, email: Option<string>, password: Option<string>,
                                    name: Option<string>, employeeId: Option<string>,
                                    hash: string -> string, token: string, now: Millis,
                                    verify: (string, string) -> bool, anyEmployeeId: Option<string>)
    requires EmailsUnique(s) && TokenFresh(s, token) && Truthy(email)
    requires Register(s, email, password, name, employeeId, hash, token, now).code == 201
    requires verify(password.value, hash(password.value))
    ensures Login(Register(s, email, password, name, employeeId, hash, token, now).store,
                  email, anyEmployeeId, password, verify).code == 403
  {
    RegisteredAlone(s, email, password, name, employeeId, hash, token, now);
  }

  /** Registering without an email needs no verification: logging in with
      the employee id and the same password succeeds at once. */
  lemma RegisterByEmployeeIdThenLogin(s: Store, password: Option<string>, name: Option<string>,
                                      employeeId: Option<string>, hash: string -> string, token: string,
                                      now: Millis, verify: (string, string) -> bool)
    requires Register(s, None, password, name, employeeId, hash, token, now).code == 201
    requires |UsersWithEmployeeId(s, employeeId.value)| == 0
    requires verify(password.value, hash(password.value))
    ensures var r := Register(s, None, password, name, employeeId, hash, token, now);
            Login(r.store, None, employeeId, password, verify) == Reply(200, r.store, Some(r.body.value.user))
  {
    var r := Register(s, None, password, name, employeeId, hash, token, now);
    WhereAppend(s.users, [r.body.value.user], EmployeeIdIs(employeeId.value));
  }

  /** The rows with `e` after a verification: the same rows, each possibly
      marked verified. */
  lemma {:induction false} VerifyKeepsEmails(s: Store, token: string, now: Millis, e: string, j: nat)
    requires VerifyEmail(s, token, now).code == 200
    requires j < |s.users| && UsersWithEmail(s, e) == [s.users[j]]
    ensures var r := VerifyEmail(s, token, now);
            UsersWithEmail(r.store, e) == [r.store.users[j]]
  {
    var r := VerifyEmail(s, token, now);
    assert s.users[j] in UsersWithEmail(s, e);
    WhereStaysSingle(s.users, r.store.users, EmailIs(e), EmailIs(e), j);
  }

  /** Register, follow the emailed link within a day, log in: the login
      succeeds and names the registered user, now verified. */
  lemma {:induction false} RegisterVerifyLogin(s: Store, email: Option<string>, password: Option<string>,
                                               name: Option<string>, employeeId: Option<string>,
                                               hash: string -> string, token: string, now: Millis,
                                               clicked: Millis, verify: (string, string) -> bool,
                                               anyEmployeeId: Option<string>)
    requires EmailsUnique(s) && TokenFresh(s, token) && Truthy(email)
    requires Register(s, email, password, name, employeeId, hash, token, now).code == 201
    requires clicked <= now + VerificationWindow
    requires verify(password.value, hash(password.value))
    ensures var r1 := Register(s, email, password, name, employeeId, hash, token, now);
            var r2 := VerifyEmail(r1.store, token, clicked);
            var r3 := Login(r2.store, email, anyEmployeeId, password, verify);
            r2.code == 200 && r3.code == 200 && r3.body.value.id == r1.body.value.user.id && r3.body.value.emailVerified
  {
    var r1 := Register(s, email, password, name, employeeId, hash, token, now);
    RegisteredAlone(s, email, password, name, employeeId, hash, token, now);
    var r2 := VerifyEmail(r1.store, token, clicked);
    assert r2.code == 200;
    var j := |s.users|;
    assert r1.store.users[j] == r1.body.value.user;
    VerifyKeepsEmails(r1.store, token, clicked, ToLower(email.value), j);
  }

  /** After a reissue to the user with id `id`, the rows holding the fresh
      token are exactly that user's rows. */
  lemma {:induction false} ReissuedAlone(xs: seq<User>, ys: seq<User>, id: Id, token: string, expiry: Millis, j: nat)
    requires |ys| == |xs| && j < |xs| && xs[j].id == id
    requires forall i :: 0 <= i < |xs| ==> xs[i].verificationToken != Some(token)
    requires |Where(xs, UserIdIs(id))| == 1
    requires forall i :: 0 <= i < |xs| ==> ys[i] == if xs[i].id == id then Reissue(token, expiry)(xs[i]) else xs[i]
    ensures Where(ys, TokenIs(token)) == [ys[j]]
  {
    WhereStaysSingle(xs, ys, UserIdIs(id), TokenIs(token), j);
  }

  /** Resend then verify: the new link verifies the account, provided the
      user's id is not shared with another row. */
  lemma ResendThenVerify(s: Store, email: Option<string>, token: string, now: Millis, clicked: Millis)
    requires TokenFresh(s, token)
    requires Resend(s, email, token, now).code == 200
    requires |UsersWithId(s, Resend(s, email, token, now).body.value.id)| == 1
    requires clicked <= now + VerificationWindow
    ensures var r1 := Resend(s, email, token, now);
            var r2 := VerifyEmail(r1.store, token, clicked);
            r2.code == 200 && r2.body.value.id == r1.body.value.id
  {
    var r1 := Resend(s, email, token, now);
    var u := r1.body.value;
    assert u in s.users;
    var j :| 0 <= j < |s.users| && s.users[j] == u;
    ReissuedAlone(s.users, r1.store.users, u.id, token, now + VerificationWindow, j);
  }
}

=== FILE: admin.dfy ===
/** The admin routes that change or page through the store: resolve an
    alert, update a user, create and update directory contacts, and list
    alerts. Every route here sits behind the admin gate. */
module Admin {
  import opened Wrappers
  import opened Js
  import opened Store
  import opened Sorting
  import Sos

  const ResolvedTitle := "SOS Alert Resolved"
  const ResolvedMessage := "Your SOS alert has been resolved by an administrator."

  // ---------------------------------------------------------------------
  // Resolve

  /** `POST /admin/sos-alerts/:id/resolve`. The update does not look at the
      current status, so a cancelled or already resolved alert is resolved
      (again) as well. */
  function Resolve(s: Store, id: Id, now: Millis): (r: Reply<Alert>)
    ensures r.code == 200 || r.code == 404
    ensures r.code == 200 <==> |AlertsWithId(s, id)| == 1
    // an unknown id writes nothing, not even a notification
    ensures |AlertsWithId(s, id)| == 0 ==> r.store == s
    ensures r.store.alerts == SetAlertStatus(s.alerts, id, Resolved, now)
    ensures r.code == 200 ==>
              var prev := AlertsWithId(s, id)[0];
              r.body == Some(prev.(status := Resolved, resolvedAt := Some(now))) &&
              |r.store.notifications| == |s.notifications| + 1 &&
              r.store.notifications[..|s.notifications|] == s.notifications &&
              var n := r.store.notifications[|s.notifications|];
              n.userId == prev.userId && n.alertId == Some(id) && n.title == ResolvedTitle &&
              n.kind == InfoNote && !n.isRead && n.id == s.nextId && r.store.nextId == s.nextId + 1
    ensures r.code != 200 ==> r.store.notifications == s.notifications && r.store.nextId == s.nextId
    ensures r.store == s.(alerts := r.store.alerts, notifications := r.store.notifications, nextId := r.store.nextId)
  {
    var s1 := s.(alerts := SetAlertStatus(s.alerts, id, Resolved, now));
    SetTerminalStatus(s, id, Resolved, now);
    if |AlertsWithId(s, id)| == 0 then
      UpdateWhereNone(s.alerts, AlertIdIs(id), CloseAs(Resolved, now));
      Reply(404, s, None)
    else
      match Single(AlertsWithId(s1, id))
      case None => Reply(404, s1, None)
      case Some(a) =>
        UpdateWhereSingle(s.alerts, AlertIdIs(id), CloseAs(Resolved, now));
        Reply(200, Notify(s1, a.userId, Some(a.id), ResolvedTitle, ResolvedMessage, InfoNote, now), Some(a))
  }

  /** Resolve never creates an active alert, so it keeps the single-active
      invariant. */
  lemma ResolveKeepsSingleActive(s: Store, id: Id, now: Millis)
    ensures forall uid :: |ActiveAlertsOf(Resolve(s, id, now).store, uid)| <= |ActiveAlertsOf(s, uid)|
    ensures SingleActive(s) ==> SingleActive(Resolve(s, id, now).store)
  {
    var r := Resolve(s, id, now);
    SetTerminalStatus(s, id, Resolved, now);
    forall uid
      ensures |ActiveAlertsOf(r.store, uid)| <= |ActiveAlertsOf(s, uid)|
    {
      assert ActiveAlertsOf(r.store, uid) == ActiveAlertsOf(s.(alerts := r.store.alerts), uid);
    }
  }

  /** As written, a cancelled alert can be resolved: the terminal status is
      overwritten and the owner is told it was resolved. */
  lemma ResolveOverwritesCancelled(s: Store, id: Id, now: Millis)
    requires |AlertsWithId(s, id)| == 1 && AlertsWithId(s, id)[0].status == Cancelled
    ensures var r := Resolve(s, id, now);
            r.code == 200 && r.body.Some? && r.body.value.status == Resolved
  {
  }

  // ---------------------------------------------------------------------
  // Users

  /** The body of `PUT /admin/users/:id`; None is a field left out. */
  datatype UserPatch = UserPatch(
    name: Option<string>,
    email: Option<string>,
    employeeId: Option<string>,
    role: Option<string>,
    emailVerified: Option<bool>)
  {
    /** A body that sets no column: the update has nothing to write. */
    predicate Empty() {
      name.None? && email.None? && employeeId.None? && role.None? && emailVerified.None?
    }
  }

  /** Only "employee" and "admin" may be written to the role column. */
  predicate ValidRole(role: Option<string>) {
    role.None? || role.value == "employee" || role.value == "admin"
  }

  /** The update data built from a patch, applied to one row. */
  function PatchUser(u: User, p: UserPatch): (v: User)
    ensures v.name == p.name.GetOr(u.name)
    ensures v.email == (if p.email.Some? then Some(ToLower(p.email.value)) else u.email)
    ensures v.employeeId == (if p.employeeId.Some? then p.employeeId else u.employeeId)
    ensures v.role == p.role.GetOr(u.role)
    ensures v.emailVerified == p.emailVerified.GetOr(u.emailVerified)
    ensures v == u.(name := v.name, email := v.email, employeeId := v.employeeId, role := v.role,
                    emailVerified := v.emailVerified)
  {
    u.(name := p.name.GetOr(u.name),
       email := if p.email.Some? then Some(ToLower(p.email.value)) else u.email,
       employeeId := if p.employeeId.Some? then p.employeeId else u.employeeId,
       role := p.role.GetOr(u.role),
       emailVerified := p.emailVerified.GetOr(u.emailVerified))
  }

  /** Applying the same update twice gives the same row as applying it once. */
  lemma PatchUserIdempotent(u: User, p: UserPatch)
    ensures PatchUser(PatchUser(u, p), p) == PatchUser(u, p)
  {
    if p.email.Some? {
      var e := ToLower(p.email.value);
      assert ToLower(e) == e;
    }
  }

  function PatchUserRow(p: UserPatch): User -> User {
    (u: User) => PatchUser(u, p)
  }

  /** `PUT /admin/users/:id` */
  function UpdateUser(s: Store, id: Id, p: UserPatch): (r: Reply<User>)
    ensures r.code in {200, 400, 404}
    ensures r.code == 400 <==> !ValidRole(p.role)
    ensures r.code == 400 ==> r.store == s
    ensures r.code == 200 <==> ValidRole(p.role) && !p.Empty() && |UsersWithId(s, id)| == 1
    // an empty update returns no row, so `.single()` fails and nothing is written
    ensures p.Empty() ==> r.store == s
    ensures |UsersWithId(s, id)| == 0 ==> r.store == s
    ensures r.store == s.(users := r.store.users)
    ensures |r.store.users| == |s.users|
    ensures r.code != 400 ==>
              forall i :: 0 <= i < |s.users| ==>
                r.store.users[i] == if s.users[i].id == id then PatchUser(s.users[i], p) else s.users[i]
    ensures r.code == 200 ==> r.body == Some(PatchUser(UsersWithId(s, id)[0], p))
  {
    if !ValidRole(p.role) then Reply(400, s, None)
    else if p.Empty() then
      Reply(404, s, None)
    else
      var users := UpdateWhere(s.users, UserIdIs(id), PatchUserRow(p));
      if |UsersWithId(s, id)| == 0 then
        UpdateWhereNone(s.users, UserIdIs(id), PatchUserRow(p));
        Reply(404, s, None)
      else if |UsersWithId(s, id)| == 1 then
        Reply(200, s.(users := users), Some(PatchUser(UsersWithId(s, id)[0], p)))
      else Reply(404, s.(users := users), None)
  }

  // ---------------------------------------------------------------------
  // Directory contacts

  /** `POST /admin/emergency-contacts`: name and role are required; an
      empty email or phone is stored as null; new contacts are active. */
  function CreateContact(s: Store, name: Option<string>, email: Option<string>, phone: Option<string>,
                         role: Option<string>, now: Millis): (r: Reply<Contact>)
    ensures r.code == 201 || r.code == 400
    ensures r.code == 400 <==> !Truthy(name) || !Truthy(role)
    ensures r.code == 400 ==> r.store == s
    ensures r.code == 201 ==>
              r.body.Some? &&
              var c := r.body.value;
              r.store == s.(contacts := s.contacts + [c], nextId := s.nextId + 1) &&
              c.id == s.nextId && c.name == name.value && c.role == role.value && c.isActive &&
              c.email == OrNull(email) && c.phone == OrNull(phone) && c.createdAt == now
  {
    if !Truthy(name) || !Truthy(role) then Reply(400, s, None)
    else
      var c := Contact(s.nextId, name.value, OrNull(email), OrNull(phone), role.value, true, now);
      Reply(201, s.(contacts := s.contacts + [c], nextId := s.nextId + 1), Some(c))
  }

  /** A contact just created takes part in the next fan-out, and is emailed
      exactly when it was given a non-empty email. */
  lemma CreatedContactJoinsFanOut(s: Store, name: Option<string>, email: Option<string>, phone: Option<string>,
                                  role: Option<string>, now: Millis)
    requires CreateContact(s, name, email, phone, role, now).code == 201
    ensures var r := CreateContact(s, name, email, phone, role, now);
            var c := r.body.value;
            && Sos.ActiveContacts(r.store) == Sos.ActiveContacts(s) + [c]
            && (c in Sos.EmailTargets(r.store) <==> Truthy(email))
  {
    var r := CreateContact(s, name, email, phone, role, now);
    var c := r.body.value;
    WhereAppend(s.contacts, [c], (x: Contact) => x.isActive);
    assert Sos.ActiveContacts(r.store) == Sos.ActiveContacts(s) + [c];
    WhereAppend(Sos.ActiveContacts(s), [c], (x: Contact) => Truthy(x.email));
  }

  /** The body of `PUT /admin/emergency-contacts/:id`; None is a field left out. */
  datatype ContactPatch = ContactPatch(
    name: Option<string>,
    email: Option<string>,
    phone: Option<string>,
    role: Option<string>,
    isActive: Option<bool>)
  {
    /** A body that sets no column: the update has nothing to write. */
    predicate Empty() {
      name.None? && email.None? && phone.None? && role.None? && isActive.None?
    }
  }

  function PatchContact(c: Contact, p: ContactPatch): (d: Contact)
    ensures d.name == p.name.GetOr(c.name)
    ensures d.email == (if p.email.Some? then p.email else c.email)
    ensures d.phone == (if p.phone.Some? then p.phone else c.phone)
    ensures d.role == p.role.GetOr(c.role)
    ensures d.isActive == p.isActive.GetOr(c.isActive)
    ensures d.id == c.id && d.createdAt == c.createdAt
  {
    c.(name := p.name.GetOr(c.name),
       email := if p.email.Some? then p.email else c.email,
       phone := if p.phone.Some? then p.phone else c.phone,
       role := p.role.GetOr(c.role),
       isActive := p.isActive.GetOr(c.isActive))
  }

  function ContactIdIs(id: Id): Contact -> bool {
    (c: Contact) => c.id == id
  }

  function PatchContactRow(p: ContactPatch): Contact -> Contact {
    (c: Contact) => PatchContact(c, p)
  }

  /** `PUT /admin/emergency-contacts/:id` */
  function UpdateContact(s: Store, id: Id, p: ContactPatch): (r: Reply<Contact>)
    ensures r.code == 200 || r.code == 404
    ensures r.code == 200 <==> !p.Empty() && |Where(s.contacts, ContactIdIs(id))| == 1
    // an empty update returns no row, so `.single()` fails and nothing is written
    ensures p.Empty() ==> r.store == s
    ensures |Where(s.contacts, ContactIdIs(id))| == 0 ==> r.store == s
    ensures r.store == s.(contacts := r.store.contacts)
    ensures |r.store.contacts| == |s.contacts|
    ensures forall i :: 0 <= i < |s.contacts| ==>
              r.store.contacts[i] == if s.contacts[i].id == id then PatchContact(s.contacts[i], p) else s.contacts[i]
    ensures r.code == 200 ==> r.body == Some(PatchContact(Where(s.contacts, ContactIdIs(id))[0], p))
  {
    var contacts := UpdateWhere(s.contacts, ContactIdIs(id), PatchContactRow(p));
    var found := Where(s.contacts, ContactIdIs(id));
    if p.Empty() then
      Reply(404, s, None)
    else if |found| == 0 then
      UpdateWhereNone(s.contacts, ContactIdIs(id), PatchContactRow(p));
      Reply(404, s, None)
    else if |found| == 1 then Reply(200, s.(contacts := contacts), Some(PatchContact(found[0], p)))
    else Reply(404, s.(contacts := contacts), None)
  }

  /** A contact switched off with `isActive: false` is left out of the
      next fan-out. */
  lemma DeactivatedContactLeavesFanOut(s: Store, id: Id, p: ContactPatch)
    requires p.isActive == Some(false)
    ensures forall c :: c in Sos.ActiveContacts(UpdateContact(s, id, p).store) ==> c.id != id
  {
    var r := UpdateContact(s, id, p);
    forall c | c in Sos.ActiveContacts(r.store)
      ensures c.id != id
    {
      var k :| 0 <= k < |Sos.ActiveContacts(r.store)| && Sos.ActiveContacts(r.store)[k] == c;
      var i :| 0 <= i < |r.store.contacts| && r.store.contacts[i] == c;
    }
  }

  // ---------------------------------------------------------------------
  // Alert list

  const DefaultLimit: nat := 100

  function AlertByCreated(a: Alert): Rank {
    Rank(a.createdAt, 0)
  }

  function StatusIs(status: string): Alert -> bool {
    (a: Alert) => StatusName(a.status) == status
  }

  /** The alerts the `status` query parameter selects: all of them when it is empty. */
  function Matching(s: Store, status: Option<string>): (r: seq<Alert>)
    ensures |r| <= |s.alerts|
    ensures forall i :: 0 <= i < |r| ==> r[i] in s.alerts
    ensures Truthy(status) ==> forall i :: 0 <= i < |r| ==> StatusName(r[i].status) == status.value
    ensures forall i :: 0 <= i < |s.alerts| && (!Truthy(status) || StatusName(s.alerts[i].status) == status.value) ==>
              s.alerts[i] in r
  {
    if Truthy(status) then Where(s.alerts, StatusIs(status.value)) else s.alerts
  }

  /** The matching alerts, newest first. */
  function NewestFirst(s: Store, status: Option<string>): (r: seq<Alert>)
    ensures |r| == |Matching(s, status)|
    ensures multiset(r) == multiset(Matching(s, status))
    ensures forall i, j :: 0 <= i < j < |r| ==> r[i].createdAt >= r[j].createdAt
    ensures forall i :: 0 <= i < |r| ==> r[i] in s.alerts
    ensures Truthy(status) ==> forall i :: 0 <= i < |r| ==> StatusName(r[i].status) == status.value
  {
    var sorted := SortDesc(Matching(s, status), AlertByCreated);
    SameRows(sorted, Matching(s, status));
    sorted
  }

  /** `.range(offset, offset + limit - 1)`: the rows at positions
      offset .. offset + limit - 1, as far as there are any. */
  function Range<T>(xs: seq<T>, offset: nat, limit: nat): (r: seq<T>)
    ensures |r| == if offset >= |xs| then 0 else if offset + limit <= |xs| then limit else |xs| - offset
    ensures forall k :: 0 <= k < |r| ==> r[k] == xs[offset + k]
  {
    if offset >= |xs| then []
    else if offset + limit <= |xs| then xs[offset..offset + limit]
    else xs[offset..]
  }

  /** `GET /admin/sos-alerts?status&limit&offset`: newest first, optionally
      filtered by status, one page of it. */
  function ListAlerts(s: Store, status: Option<string>, limit: Option<nat>, offset: Option<nat>): (r: seq<Alert>)
    ensures forall i, j :: 0 <= i < j < |r| ==> r[i].createdAt >= r[j].createdAt
    ensures forall i :: 0 <= i < |r| ==> r[i] in s.alerts
    ensures Truthy(status) ==> forall i :: 0 <= i < |r| ==> StatusName(r[i].status) == status.value
    ensures var n := |Matching(s, status)|; var o := offset.GetOr(0); var l := limit.GetOr(DefaultLimit);
            |r| == if o >= n then 0 else if o + l <= n then l else n - o
  {
    Range(NewestFirst(s, status), offset.GetOr(0), limit.GetOr(DefaultLimit))
  }

  /** Two consecutive ranges put together are the range that spans both. */
  lemma RangeConcat<T>(xs: seq<T>, offset: nat, a: nat, b: nat)
    ensures Range(xs, offset, a) + Range(xs, offset + a, b) == Range(xs, offset, a + b)
  {
    var left := Range(xs, offset, a);
    var right := Range(xs, offset + a, b);
    var whole := Range(xs, offset, a + b);
    assert |left + right| == |whole|;
    forall k | 0 <= k < |whole|
      ensures (left + right)[k] == whole[k]
    {
      if k < |left| {
        assert (left + right)[k] == left[k];
      } else {
        assert (left + right)[k] == right[k - |left|];
      }
    }
  }

  /** Two consecutive pages put together are the page that spans both. */
  lemma PagesConcatenate(s: Store, status: Option<string>, offset: nat, a: nat, b: nat)
    ensures ListAlerts(s, status, Some(a), Some(offset)) + ListAlerts(s, status, Some(b), Some(offset + a))
            == ListAlerts(s, status, Some(a + b), Some(offset))
  {
    RangeConcat(NewestFirst(s, status), offset, a, b);
  }

  /** A page that starts at 0 and is long enough holds every matching alert. */
  lemma FirstPageHoldsAll(s: Store, status: Option<string>, limit: nat)
    requires limit >= |s.alerts|
    ensures multiset(ListAlerts(s, status, Some(limit), Some(0))) == multiset(Matching(s, status))
  {
    var xs := NewestFirst(s, status);
    assert Range(xs, 0, limit) == xs;
  }
}

=== FILE: gate.dfy ===
/** The authentication middleware. A request passes when its bearer token
    is accepted by the hosted identity service or, failing that, is one of
    the server's own signed tokens naming a stored user. The identity
    service and the token signature check are not modelled; they are
    passed in as functions of the token. */
module Gate {
  import opened Wrappers
  import opened Js
  import opened Store

  const BearerPrefix: string := "Bearer "

  /** `header.startsWith('Bearer ') ? header.slice(7) : null` */
  function BearerToken(header: string): (r: Option<string>)
    ensures r.Some? <==> StartsWith(header, BearerPrefix)
    ensures r.Some? ==> header == BearerPrefix + r.value
  {
    if StartsWith(header, BearerPrefix) then
      assert header == header[..|BearerPrefix|] + header[|BearerPrefix|..];
      Some(header[|BearerPrefix|..])
    else None
  }

  /** The token a client sends is the token the server reads back. */
  lemma BearerRoundTrip(token: string)
    ensures BearerToken(BearerPrefix + token) == Some(token)
  {
    var h := BearerPrefix + token;
    assert h[..|BearerPrefix|] == BearerPrefix;
    assert h[|BearerPrefix|..] == token;
  }

  /** What the identity service reports for a token it accepts. */
  datatype IdentityUser = IdentityUser(id: Option<Id>, email: Option<string>, metadataRole: Option<string>)

  /** `req.user` */
  datatype Principal = Principal(id: Id, role: string)

  datatype Decision = Pass(principal: Principal) | Deny(code: int)

  /** The role a stored user gets: its column, or "employee" when empty. */
  function RoleOr(role: string): (r: string)
    ensures r != ""
    ensures role != "" ==> r == role
    ensures role == "" ==> r == "employee"
  {
    OrElse(Some(role), "employee")
  }

  /** The custom user matched by the identity's email; an absent email
      matches nobody. */
  function CustomUser(s: Store, who: IdentityUser): (r: Option<User>)
    ensures r.Some? <==> who.email.Some? && |UsersWithEmail(s, who.email.value)| == 1
    ensures r.Some? ==> r.value in s.users && r.value.email == who.email
  {
    if who.email.None? then None else Single(UsersWithEmail(s, who.email.value))
  }

  /** The identity-service path of the middleware. */
  function HostedIdentity(s: Store, who: IdentityUser): (d: Decision)
    ensures d.Deny? ==> d.code == 401
    ensures d.Pass? <==> CustomUser(s, who).Some? || who.id.Some?
    ensures d.Pass? ==> d.principal.role != ""
    ensures CustomUser(s, who).Some? ==>
              d == Pass(Principal(CustomUser(s, who).value.id, RoleOr(CustomUser(s, who).value.role)))
    ensures CustomUser(s, who).None? && who.id.Some? ==>
              d == Pass(Principal(who.id.value, OrElse(who.metadataRole, "employee")))
  {
    match CustomUser(s, who)
    case Some(u) => Pass(Principal(u.id, RoleOr(u.role)))
    case None =>
      if who.id.None? then Deny(401)
      else Pass(Principal(who.id.value, OrElse(who.metadataRole, "employee")))
  }

  /** The server's own token path: the signed token's subject must be a
      stored user, whose role is taken as it is, empty or not. */
  function OwnToken(s: Store, sub: Option<Id>): (d: Decision)
    ensures d.Deny? ==> d.code == 401
    ensures d.Pass? <==> sub.Some? && |UsersWithId(s, sub.value)| == 1
    ensures d.Pass? ==> d.principal == Principal(sub.value, UsersWithId(s, sub.value)[0].role)
  {
    if sub.None? then Deny(401)
    else
      match Single(UsersWithId(s, sub.value))
      case None => Deny(401)
      case Some(u) => Pass(Principal(sub.value, u.role))
  }

  /** `authRequired`. `header` is the Authorization header, `identity` the
      identity service's answer for a token, `verifyJwt` the subject of a
      validly signed token. */
  function Authenticate(s: Store, header: Option<string>, identity: string -> Option<IdentityUser>,
                        verifyJwt: string -> Option<Id>): (d: Decision)
    ensures d.Deny? ==> d.code == 401
    ensures d.Pass? ==> BearerToken(header.GetOr("")).Some? && BearerToken(header.GetOr("")).value != ""
    ensures (BearerToken(header.GetOr("")).None? || BearerToken(header.GetOr("")).value == "") ==> d == Deny(401)
    ensures BearerToken(header.GetOr("")).Some? && BearerToken(header.GetOr("")).value != "" ==>
              var token := BearerToken(header.GetOr("")).value;
              d == if identity(token).Some? then HostedIdentity(s, identity(token).value)
                   else OwnToken(s, verifyJwt(token))
  {
    match BearerToken(header.GetOr(""))
    case None => Deny(401)
    case Some(token) =>
      if token == "" then Deny(401)
      else if identity(token).Some? then HostedIdentity(s, identity(token).value)
      else OwnToken(s, verifyJwt(token))
  }

  /** `adminRequired`: authentication first, then the exact role "admin". */
  function RequireAdmin(d: Decision): (r: Decision)
    ensures r.Pass? <==> d.Pass? && d.principal.role == "admin"
    ensures r.Pass? ==> r == d
    ensures d.Deny? ==> r == d
    ensures d.Pass? && d.principal.role != "admin" ==> r == Deny(403)
  {
    if d.Deny? then d
    else if d.principal.role == "admin" then d
    else Deny(403)
  }

  /** A user known to the identity service and to the users table acts as
      the stored user, with the stored role. */
  lemma HostedIdentityUsesStoredUser(s: Store, header: Option<string>, identity: string -> Option<IdentityUser>,
                                     verifyJwt: string -> Option<Id>, token: string, u: User)
    requires header == Some(BearerPrefix + token) && token != ""
    requires identity(token).Some? && identity(token).value.email.Some?
    requires UsersWithEmail(s, identity(token).value.email.value) == [u]
    ensures Authenticate(s, header, identity, verifyJwt) == Pass(Principal(u.id, RoleOr(u.role)))
  {
    BearerRoundTrip(token);
  }

  /** A token the identity service refuses falls back to the server's own
      tokens; one whose subject is a stored user authenticates as that user. */
  lemma OwnTokenFallback(s: Store, header: Option<string>, identity: string -> Option<IdentityUser>,
                         verifyJwt: string -> Option<Id>, token: string, u: User)
    requires header == Some(BearerPrefix + token) && token != ""
    requires identity(token).None? && verifyJwt(token) == Some(u.id)
    requires UsersWithId(s, u.id) == [u]
    ensures Authenticate(s, header, identity, verifyJwt) == Pass(Principal(u.id, u.role))
  {
    BearerRoundTrip(token);
  }

  /** The admin routes admit exactly the principals with role "admin"; an
      unauthenticated request still gets 401, not 403. */
  lemma AdminGate(s: Store, header: Option<string>, identity: string -> Option<IdentityUser>,
                  verifyJwt: string -> Option<Id>)
    ensures var d := Authenticate(s, header, identity, verifyJwt);
            var r := RequireAdmin(d);
            (r.Pass? ==> r.principal.role == "admin" && d == r) &&
            (r.Deny? ==> (r.code == 401 <==> d.Deny?) && (r.code == 403 <==> d.Pass?))
  {
  }
}

=== FILE: js.dfy ===
/** The few JavaScript value rules the route handlers depend on: truthiness
    of optional strings and numbers, `x || null`, `x || default`,
    ASCII `toLowerCase`, `startsWith` and number-to-string rendering. */
module Js {
  import opened Wrappers

  /** A coordinate as the client sent it, in an opaque fixed-point unit. */
  type Coord = int

  /** `!!s` for a string field that may be undefined: undefined and "" are falsy. */
  predicate Truthy(s: Option<string>) {
    s.Some? && s.value != ""
  }

  /** `!!c` for a numeric field that may be undefined: undefined and 0 are falsy. */
  predicate TruthyCoord(c: Option<Coord>) {
    c.Some? && c.value != 0
  }

  /** `s || null` */
  function OrNull(s: Option<string>): (r: Option<string>)
    ensures r.Some? <==> Truthy(s)
    ensures r.Some? ==> r == s
  {
    if Truthy(s) then s else None
  }

  /** `c || null` for a coordinate */
  function CoordOrNull(c: Option<Coord>): (r: Option<Coord>)
    ensures r.Some? <==> TruthyCoord(c)
    ensures r.Some? ==> r == c
  {
    if TruthyCoord(c) then c else None
  }

  /** `s || fallback` */
  function OrElse(s: Option<string>, fallback: string): (r: string)
    ensures Truthy(s) ==> r == s.value
    ensures !Truthy(s) ==> r == fallback
  {
    if Truthy(s) then s.value else fallback
  }

  function LowerChar(c: char): char {
    if 'A' <= c <= 'Z' then (c as int + 32) as char else c
  }

  /** `s.toLowerCase()`, restricted to the ASCII letters. */
  function ToLower(s: string): (r: string)
    ensures |r| == |s|
    ensures forall i :: 0 <= i < |s| ==> r[i] == LowerChar(s[i])
  {
    seq(|s|, i requires 0 <= i < |s| => LowerChar(s[i]))
  }

  /** Lowercasing leaves no upper-case ASCII letter, so a lowered address
      lowers to itself: stored and looked-up emails compare equal. */
  lemma ToLowerIdempotent(s: string)
    ensures forall i :: 0 <= i < |s| ==> !('A' <= ToLower(s)[i] <= 'Z')
    ensures ToLower(ToLower(s)) == ToLower(s)
  {
    var once := ToLower(s);
    forall i | 0 <= i < |s|
      ensures !('A' <= once[i] <= 'Z') && LowerChar(once[i]) == once[i]
    {
      assert once[i] == LowerChar(s[i]);
    }
  }

  /** `header.startsWith(prefix)` */
  predicate StartsWith(s: string, prefix: string) {
    |prefix| <= |s| && s[..|prefix|] == prefix
  }

  function DigitChar(d: nat): char
    requires d < 10
  {
    "0123456789"[d]
  }

  function NatToString(n: nat): (r: string)
    ensures |r| > 0
    decreases n
  {
    if n < 10 then [DigitChar(n)] else NatToString(n / 10) + [DigitChar(n % 10)]
  }

  /** `${c}` for a coordinate; `${undefined}` renders as "undefined". */
  function CoordText(c: Option<Coord>): string {
    match c
    case None => "undefined"
    case Some(v) => if v < 0 then "-" + NatToString(-v) else NatToString(v)
  }
}

=== FILE: notifications.dfy ===
/** The in-app notification routes: `GET /notifications` and
    `POST /notifications/:id/read`, both limited to the caller's rows. */
module Notifications {
  import opened Wrappers
  import opened Store
  import opened Sorting

  function OwnedBy(uid: Id): Notification -> bool {
    (n: Notification) => n.userId == uid
  }

  function ByCreated(n: Notification): Rank {
    Rank(n.createdAt, 0)
  }

  /** `GET /notifications`: the caller's notifications, newest first. */
  function List(s: Store, uid: Id): (r: seq<Notification>)
    ensures forall i :: 0 <= i < |r| ==> r[i].userId == uid && r[i] in s.notifications
    ensures forall i :: 0 <= i < |s.notifications| && s.notifications[i].userId == uid ==> s.notifications[i] in r
    ensures multiset(r) == multiset(Where(s.notifications, OwnedBy(uid)))
    ensures forall i, j :: 0 <= i < j < |r| ==> r[i].createdAt >= r[j].createdAt
  {
    var mine := Where(s.notifications, OwnedBy(uid));
    var r := SortDesc(mine, ByCreated);
    SameRows(r, mine);
    NewestOrder(r);
    r
  }

  /** What the descending creation rank means for the column. */
  lemma NewestOrder(r: seq<Notification>)
    requires Descending(r, ByCreated)
    ensures forall i, j :: 0 <= i < j < |r| ==> r[i].createdAt >= r[j].createdAt
  {
    forall i, j | 0 <= i < j < |r|
      ensures r[i].createdAt >= r[j].createdAt
    {
      assert AtLeast(ByCreated(r[i]), ByCreated(r[j]));
    }
  }

  function TargetOf(id: Id, uid: Id): Notification -> bool {
    (n: Notification) => n.id == id && n.userId == uid
  }

  /** `update notifications set is_read = true where id = id and user_id = uid`,
      answered through `.single()`. */
  function MarkRead(s: Store, uid: Id, id: Id): (r: Reply<Notification>)
    ensures r.code == 200 || r.code == 404
    ensures r.code == 200 <==> |Where(s.notifications, TargetOf(id, uid))| == 1
    // a notification that is missing or someone else's is left alone
    ensures |Where(s.notifications, TargetOf(id, uid))| == 0 ==> r.store == s && r.code == 404
    ensures r.store == s.(notifications := r.store.notifications)
    ensures |r.store.notifications| == |s.notifications|
    ensures forall i :: 0 <= i < |s.notifications| ==>
              var n := s.notifications[i];
              r.store.notifications[i] == if n.id == id && n.userId == uid then n.(isRead := true) else n
    ensures r.code == 200 ==>
              r.body.Some? && r.body.value.id == id && r.body.value.userId == uid && r.body.value.isRead
  {
    var after := seq(|s.notifications|, i requires 0 <= i < |s.notifications| =>
      var n := s.notifications[i];
      if n.id == id && n.userId == uid then n.(isRead := true) else n);
    var matches := Where(s.notifications, TargetOf(id, uid));
    if |matches| == 0 then
      WhereNone(s.notifications, TargetOf(id, uid));
      assert after == s.notifications;
      Reply(404, s, None)
    else if |matches| == 1 then Reply(200, s.(notifications := after), Some(matches[0].(isRead := true)))
    else Reply(404, s.(notifications := after), None)
  }

  /** Marking read twice leaves the same store as marking it once. */
  lemma MarkReadIdempotent(s: Store, uid: Id, id: Id)
    ensures var once := MarkRead(s, uid, id);
            var twice := MarkRead(once.store, uid, id);
            twice.store == once.store && twice.code == once.code
  {
    var once := MarkRead(s, uid, id);
    var twice := MarkRead(once.store, uid, id);
    assert twice.store.notifications == once.store.notifications;
    assert |Where(once.store.notifications, TargetOf(id, uid))| == |Where(s.notifications, TargetOf(id, uid))| by {
      WhereLe(s.notifications, once.store.notifications, TargetOf(id, uid), TargetOf(id, uid));
      WhereLe(once.store.notifications, s.notifications, TargetOf(id, uid), TargetOf(id, uid));
    }
  }

  /** Marking read never changes what another user's notification list holds. */
  lemma MarkReadScoped(s: Store, uid: Id, id: Id, other: Id)
    requires other != uid
    ensures Where(MarkRead(s, uid, id).store.notifications, OwnedBy(other)) == Where(s.notifications, OwnedBy(other))
  {
    WhereSame(s.notifications, MarkRead(s, uid, id).store.notifications, OwnedBy(other));
  }
}

=== FILE: profile.dfy ===
/** The profile routes: a user's personal emergency contacts (list, create,
    update, delete, all scoped to the caller) and the caller's own profile.
    Creating or updating a contact as primary first unsets the caller's other
    primaries, which keeps at most one primary contact per user. */
module Profile {
  import opened Wrappers
  import opened Js
  import opened Store
  import opened Sorting

  function MineFor(uid: Id): UserContact -> bool {
    (c: UserContact) => c.userId == uid
  }

  function ContactIdIs(id: Id): UserContact -> bool {
    (c: UserContact) => c.id == id
  }

  /** `order by is_primary desc, created_at desc` */
  function ContactRank(c: UserContact): Rank {
    Rank(if c.isPrimary then 1 else 0, c.createdAt)
  }

  /** `GET /profile/emergency-contacts`: the caller's contacts, primary
      first, then newest first. */
  function ListContacts(s: Store, uid: Id): (r: seq<UserContact>)
    ensures forall i :: 0 <= i < |r| ==> r[i].userId == uid && r[i] in s.userContacts
    ensures forall i :: 0 <= i < |s.userContacts| && s.userContacts[i].userId == uid ==> s.userContacts[i] in r
    ensures multiset(r) == multiset(Where(s.userContacts, MineFor(uid)))
    ensures forall i, j :: 0 <= i < j < |r| && r[j].isPrimary ==> r[i].isPrimary
    ensures forall i, j :: 0 <= i < j < |r| && r[i].isPrimary == r[j].isPrimary ==> r[i].createdAt >= r[j].createdAt
  {
    var mine := Where(s.userContacts, MineFor(uid));
    var r := SortDesc(mine, ContactRank);
    SameRows(r, mine);
    ContactOrder(r);
    r
  }

  /** What the contact rank's descending order means for the two columns. */
  lemma ContactOrder(r: seq<UserContact>)
    requires Descending(r, ContactRank)
    ensures forall i, j :: 0 <= i < j < |r| && r[j].isPrimary ==> r[i].isPrimary
    ensures forall i, j :: 0 <= i < j < |r| && r[i].isPrimary == r[j].isPrimary ==> r[i].createdAt >= r[j].createdAt
  {
    forall i, j | 0 <= i < j < |r|
      ensures r[j].isPrimary ==> r[i].isPrimary
      ensures r[i].isPrimary == r[j].isPrimary ==> r[i].createdAt >= r[j].createdAt
    {
      assert AtLeast(ContactRank(r[i]), ContactRank(r[j]));
    }
  }

  function Unprimary(c: UserContact): UserContact {
    c.(isPrimary := false)
  }

  function ClearTarget(uid: Id, except: Option<Id>): UserContact -> bool {
    (c: UserContact) => c.userId == uid && (except.None? || c.id != except.value)
  }

  /** `update user_emergency_contacts set is_primary = false where user_id = uid
      [and id <> except]` */
  function ClearPrimary(cs: seq<UserContact>, uid: Id, except: Option<Id>): (r: seq<UserContact>)
    ensures |r| == |cs|
    ensures forall i :: 0 <= i < |cs| ==>
              r[i] == if cs[i].userId == uid && (except.None? || cs[i].id != except.value)
                      then cs[i].(isPrimary := false) else cs[i]
  {
    UpdateWhere(cs, ClearTarget(uid, except), Unprimary)
  }

  // ---------------------------------------------------------------------
  // Create

  /** `POST /profile/emergency-contacts`. `isPrimary` is the truthiness of
      the body field. */
  function CreateContact(s: Store, uid: Id, name: Option<string>, email: Option<string>, phone: Option<string>,
                         relationship: Option<string>, isPrimary: bool, now: Millis): (r: Reply<UserContact>)
    ensures r.code == 201 || r.code == 400
    ensures r.code == 400 <==> !Truthy(name)
    ensures r.code == 400 ==> r.store == s
    ensures r.store == s.(userContacts := r.store.userContacts, nextId := r.store.nextId)
    ensures r.code == 201 ==>
              r.body.Some? && r.store.nextId == s.nextId + 1 &&
              var c := r.body.value;
              |r.store.userContacts| == |s.userContacts| + 1 &&
              r.store.userContacts[|s.userContacts|] == c &&
              c.id == s.nextId && c.userId == uid && c.name == name.value && c.isPrimary == isPrimary &&
              c.email == OrNull(email) && c.phone == OrNull(phone) && c.relationship == OrNull(relationship) &&
              c.createdAt == now
    // the reset before the insert: all the caller's contacts, and nobody else's
    ensures r.code == 201 ==>
              forall i :: 0 <= i < |s.userContacts| ==>
                r.store.userContacts[i] == if isPrimary && s.userContacts[i].userId == uid
                                           then s.userContacts[i].(isPrimary := false) else s.userContacts[i]
  {
    if !Truthy(name) then Reply(400, s, None)
    else
      var cleared := if isPrimary then ClearPrimary(s.userContacts, uid, None) else s.userContacts;
      var c := UserContact(s.nextId, uid, name.value, OrNull(email), OrNull(phone), OrNull(relationship), isPrimary, now);
      Reply(201, s.(userContacts := cleared + [c], nextId := s.nextId + 1), Some(c))
  }

  /** The caller's contacts after the reset, then the new row. */
  lemma {:induction false} InsertAfterReset(xs: seq<UserContact>, cleared: seq<UserContact>, c: UserContact,
                                            uid: Id, isPrimary: bool, u: Id)
    requires |cleared| == |xs|
    requires forall i :: 0 <= i < |xs| ==>
               cleared[i] == if isPrimary && xs[i].userId == uid then xs[i].(isPrimary := false) else xs[i]
    requires c.userId == uid && c.isPrimary == isPrimary
    requires |Where(xs, PrimaryFor(u))| <= 1
    ensures |Where(cleared + [c], PrimaryFor(u))| <= 1
    ensures u == uid && isPrimary ==> Where(cleared + [c], PrimaryFor(u)) == [c]
  {
    WhereAppend(cleared, [c], PrimaryFor(u));
    WhereLe(xs, cleared, PrimaryFor(u), PrimaryFor(u));
    if u == uid && isPrimary {
      WhereNone(cleared, PrimaryFor(u));
    } else if u != uid {
      assert Where([c], PrimaryFor(u)) == [];
    }
  }

  /** Create keeps at most one primary per user; creating a primary leaves
      it the caller's only primary. */
  lemma CreateKeepsSinglePrimary(s: Store, uid: Id, name: Option<string>, email: Option<string>,
                                 phone: Option<string>, relationship: Option<string>,
                                 isPrimary: bool, now: Millis)
    requires SinglePrimary(s)
    ensures var r := CreateContact(s, uid, name, email, phone, relationship, isPrimary, now);
            SinglePrimary(r.store) && (r.code == 201 && isPrimary ==> PrimaryContactsOf(r.store, uid) == [r.body.value])
  {
    var r := CreateContact(s, uid, name, email, phone, relationship, isPrimary, now);
    if r.code == 201 {
      var c := r.body.value;
      var cleared := r.store.userContacts[..|s.userContacts|];
      assert r.store.userContacts == cleared + [c];
      forall u
        ensures |PrimaryContactsOf(r.store, u)| <= 1
        ensures u == uid && isPrimary ==> PrimaryContactsOf(r.store, u) == [c]
      {
        assert |PrimaryContactsOf(s, u)| <= 1;
        InsertAfterReset(s.userContacts, cleared, c, uid, isPrimary, u);
      }
    }
  }

  /** Create never changes another user's contacts. */
  lemma CreateScoped(s: Store, uid: Id, name: Option<string>, email: Option<string>, phone: Option<string>,
                     relationship: Option<string>, isPrimary: bool, now: Millis, other: Id)
    requires other != uid
    ensures var r := CreateContact(s, uid, name, email, phone, relationship, isPrimary, now);
            Where(r.store.userContacts, MineFor(other)) == Where(s.userContacts, MineFor(other))
  {
    var r := CreateContact(s, uid, name, email, phone, relationship, isPrimary, now);
    if r.code == 201 {
      var cleared := r.store.userContacts[..|s.userContacts|];
      assert r.store.userContacts == cleared + [r.body.value];
      WhereAppend(cleared, [r.body.value], MineFor(other));
      WhereSame(s.userContacts, cleared, MineFor(other));
    }
  }

  // ---------------------------------------------------------------------
  // Update

  /** The body of `PUT /profile/emergency-contacts/:id`; None is a field left out. */
  datatype ContactPatch = ContactPatch(
    name: Option<string>,
    email: Option<string>,
    phone: Option<string>,
    relationship: Option<string>,
    isPrimary: Option<bool>)
  {
    /** A body that sets no column: the update has nothing to write. */
    predicate Empty() {
      name.None? && email.None? && phone.None? && relationship.None? && isPrimary.None?
    }
  }

  function PatchContact(c: UserContact, p: ContactPatch): (d: UserContact)
    ensures d.name == p.name.GetOr(c.name)
    ensures d.email == (if p.email.Some? then p.email else c.email)
    ensures d.phone == (if p.phone.Some? then p.phone else c.phone)
    ensures d.relationship == (if p.relationship.Some? then p.relationship else c.relationship)
    ensures d.isPrimary == p.isPrimary.GetOr(c.isPrimary)
    ensures d.id == c.id && d.userId == c.userId && d.createdAt == c.createdAt
  {
    c.(name := p.name.GetOr(c.name),
       email := if p.email.Some? then p.email else c.email,
       phone := if p.phone.Some? then p.phone else c.phone,
       relationship := if p.relationship.Some? then p.relationship else c.relationship,
       isPrimary := p.isPrimary.GetOr(c.isPrimary))
  }

  function PatchRow(p: ContactPatch): UserContact -> UserContact {
    (c: UserContact) => PatchContact(c, p)
  }

  /** The ownership check of update and delete: exactly one row with that
      id, and it is the caller's. */
  predicate OwnsContact(s: Store, uid: Id, id: Id) {
    var found := Single(Where(s.userContacts, ContactIdIs(id)));
    found.Some? && found.value.userId == uid
  }

  /** `PUT /profile/emergency-contacts/:id` */
  function UpdateContact(s: Store, uid: Id, id: Id, p: ContactPatch): (r: Reply<UserContact>)
    ensures r.code == 200 || r.code == 404
    ensures r.code == 200 <==> OwnsContact(s, uid, id) && !p.Empty()
    ensures r.code == 404 ==> r.store == s
    // an empty update returns no row, so `.single()` fails and nothing is written
    ensures p.Empty() ==> r.code == 404
    ensures r.store == s.(userContacts := r.store.userContacts)
    ensures |r.store.userContacts| == |s.userContacts|
    ensures r.code == 200 ==>
              forall i :: 0 <= i < |s.userContacts| ==>
                var c := s.userContacts[i];
                r.store.userContacts[i] ==
                  if c.id == id then PatchContact(c, p)
                  else if p.isPrimary == Some(true) && c.userId == uid then c.(isPrimary := false)
                  else c
    ensures r.code == 200 ==> r.body == Some(PatchContact(Where(s.userContacts, ContactIdIs(id))[0], p))
  {
    if !OwnsContact(s, uid, id) || p.Empty() then Reply(404, s, None)
    else
      var existing := Where(s.userContacts, ContactIdIs(id))[0];
      var cleared := if p.isPrimary == Some(true) then ClearPrimary(s.userContacts, uid, Some(id)) else s.userContacts;
      Reply(200, s.(userContacts := UpdateWhere(cleared, ContactIdIs(id), PatchRow(p))), Some(PatchContact(existing, p)))
  }

  /** Every row with the owned contact's id is that contact. */
  lemma OwnedRow(s: Store, uid: Id, id: Id, i: nat)
    requires OwnsContact(s, uid, id)
    requires i < |s.userContacts| && s.userContacts[i].id == id
    ensures s.userContacts[i] == Where(s.userContacts, ContactIdIs(id))[0]
    ensures s.userContacts[i].userId == uid
  {
    SingleWhere(s.userContacts, ContactIdIs(id));
    assert ContactIdIs(id)(s.userContacts[i]);
  }

  /** The rows of UpdateContact's table after a successful update. */
  ghost predicate UpdatedRows(xs: seq<UserContact>, ys: seq<UserContact>, uid: Id, id: Id, p: ContactPatch) {
    && |ys| == |xs|
    && (forall i :: 0 <= i < |xs| ==>
          ys[i] == if xs[i].id == id then PatchContact(xs[i], p)
                   else if p.isPrimary == Some(true) && xs[i].userId == uid then xs[i].(isPrimary := false)
                   else xs[i])
    && (forall i :: 0 <= i < |xs| && xs[i].id == id ==> xs[i].userId == uid)
  }

  /** A successful update leaves at most one primary for any user `u`. */
  lemma {:induction false} UpdatePrimaryCount(xs: seq<UserContact>, ys: seq<UserContact>, uid: Id, id: Id,
                                              p: ContactPatch, u: Id)
    requires UpdatedRows(xs, ys, uid, id, p)
    requires |Where(xs, ContactIdIs(id))| == 1
    requires |Where(xs, PrimaryFor(u))| <= 1
    ensures |Where(ys, PrimaryFor(u))| <= 1
  {
    if u == uid && p.isPrimary == Some(true) {
      // only the patched row can still be primary, and it is the only row with its id
      WhereLe(xs, ys, ContactIdIs(id), PrimaryFor(u));
    } else {
      WhereLe(xs, ys, PrimaryFor(u), PrimaryFor(u));
    }
  }

  /** Making the owned contact primary leaves it its owner's only primary. */
  lemma {:induction false} UpdateOnlyPrimary(xs: seq<UserContact>, ys: seq<UserContact>, uid: Id, id: Id,
                                             p: ContactPatch, target: UserContact)
    requires UpdatedRows(xs, ys, uid, id, p)
    requires p.isPrimary == Some(true)
    requires Where(xs, ContactIdIs(id)) == [target]
    ensures Where(ys, PrimaryFor(uid)) == [PatchContact(target, p)]
  {
    WhereLe(xs, ys, ContactIdIs(id), PrimaryFor(uid));
    assert target in Where(xs, ContactIdIs(id));
    var j :| 0 <= j < |xs| && xs[j] == target;
    assert PrimaryFor(uid)(ys[j]);
    var w := Where(ys, PrimaryFor(uid));
    assert |w| == 1;
    var m :| 0 <= m < |ys| && ys[m] == w[0];
    assert xs[m] in Where(xs, ContactIdIs(id));
  }

  /** Update keeps at most one primary per user; making a contact primary
      leaves it the caller's only primary. */
  lemma UpdateKeepsSinglePrimary(s: Store, uid: Id, id: Id, p: ContactPatch)
    requires SinglePrimary(s)
    ensures var r := UpdateContact(s, uid, id, p);
            SinglePrimary(r.store) &&
            (r.code == 200 && p.isPrimary == Some(true) ==> PrimaryContactsOf(r.store, uid) == [r.body.value])
  {
    var r := UpdateContact(s, uid, id, p);
    if r.code == 200 {
      var xs := s.userContacts;
      var ys := r.store.userContacts;
      forall i | 0 <= i < |xs| && xs[i].id == id
        ensures xs[i].userId == uid
      {
        OwnedRow(s, uid, id, i);
      }
      assert UpdatedRows(xs, ys, uid, id, p);
      forall u
        ensures |PrimaryContactsOf(r.store, u)| <= 1
      {
        assert |PrimaryContactsOf(s, u)| <= 1;
        UpdatePrimaryCount(xs, ys, uid, id, p, u);
      }
      if p.isPrimary == Some(true) {
        UpdateOnlyPrimary(xs, ys, uid, id, p, Where(xs, ContactIdIs(id))[0]);
      }
    }
  }

  /** Update never changes another user's contacts. */
  lemma UpdateScoped(s: Store, uid: Id, id: Id, p: ContactPatch, other: Id)
    requires other != uid
    ensures Where(UpdateContact(s, uid, id, p).store.userContacts, MineFor(other)) == Where(s.userContacts, MineFor(other))
  {
    var r := UpdateContact(s, uid, id, p);
    if r.code == 200 {
      forall i | 0 <= i < |s.userContacts| && (MineFor(other)(s.userContacts[i]) || MineFor(other)(r.store.userContacts[i]))
        ensures s.userContacts[i] == r.store.userContacts[i]
      {
        if s.userContacts[i].id == id {
          OwnedRow(s, uid, id, i);
        }
      }
      WhereSame(s.userContacts, r.store.userContacts, MineFor(other));
    }
  }

  // ---------------------------------------------------------------------
  // Delete

  function NotId(id: Id): UserContact -> bool {
    (c: UserContact) => c.id != id
  }

  /** `DELETE /profile/emergency-contacts/:id` */
  function DeleteContact(s: Store, uid: Id, id: Id): (r: Reply<bool>)
    ensures r.code == 200 || r.code == 404
    ensures r.code == 200 <==> OwnsContact(s, uid, id)
    ensures r.code == 404 ==> r.store == s
    ensures r.store == s.(userContacts := r.store.userContacts)
    ensures r.code == 200 ==>
              (forall i :: 0 <= i < |r.store.userContacts| ==>
                 r.store.userContacts[i].id != id && r.store.userContacts[i] in s.userContacts) &&
              (forall i :: 0 <= i < |s.userContacts| && s.userContacts[i].id != id ==>
                 s.userContacts[i] in r.store.userContacts) &&
              |r.store.userContacts| == |s.userContacts| - 1
  {
    if !OwnsContact(s, uid, id) then Reply(404, s, None)
    else
      var kept := Where(s.userContacts, NotId(id));
      assert |kept| == |s.userContacts| - 1 by {
        DeleteCount(s.userContacts, id);
      }
      Reply(200, s.(userContacts := kept), Some(true))
  }

  /** Rows with the id and rows without it add up to the table. */
  lemma {:induction false} DeleteCount(cs: seq<UserContact>, id: Id)
    ensures |Where(cs, NotId(id))| + |Where(cs, ContactIdIs(id))| == |cs|
    decreases |cs|
  {
    if |cs| > 0 {
      DeleteCount(cs[1..], id);
    }
  }

  /** Deleting contacts never adds a primary. */
  lemma DeleteKeepsSinglePrimary(s: Store, uid: Id, id: Id)
    requires SinglePrimary(s)
    ensures SinglePrimary(DeleteContact(s, uid, id).store)
  {
    var r := DeleteContact(s, uid, id);
    forall u
      ensures |PrimaryContactsOf(r.store, u)| <= 1
    {
      assert |PrimaryContactsOf(s, u)| <= 1;
      WhereOfWhere(s.userContacts, NotId(id), PrimaryFor(u));
    }
  }

  // ---------------------------------------------------------------------
  // The caller's own profile

  /** `GET /profile` */
  function GetProfile(s: Store, uid: Id): (r: Reply<User>)
    ensures r.store == s
    ensures r.code == 200 || r.code == 404
    ensures r.code == 200 <==> |UsersWithId(s, uid)| == 1
    ensures r.code == 200 ==> r.body.Some? && r.body.value.id == uid && r.body.value in s.users
  {
    match Single(UsersWithId(s, uid))
    case None => Reply(404, s, None)
    case Some(u) => Reply(200, s, Some(u))
  }

  function Rename(name: string): User -> User {
    (u: User) => u.(name := name)
  }

  /** `PUT /profile`: `name` is the only field it takes, and it is required. */
  function UpdateProfile(s: Store, uid: Id, name: Option<string>): (r: Reply<User>)
    ensures r.code in {200, 400, 404}
    ensures r.code == 400 <==> name.None?
    ensures r.code == 400 ==> r.store == s
    ensures r.code == 200 <==> name.Some? && |UsersWithId(s, uid)| == 1
    ensures r.store == s.(users := r.store.users)
    ensures |r.store.users| == |s.users|
    ensures name.Some? ==>
              forall i :: 0 <= i < |s.users| ==>
                r.store.users[i] == if s.users[i].id == uid then s.users[i].(name := name.value) else s.users[i]
    ensures r.code == 200 ==> r.body.Some? && r.body.value.id == uid && r.body.value.name == name.value
  {
    if name.None? then Reply(400, s, None)
    else
      var users := UpdateWhere(s.users, UserIdIs(uid), Rename(name.value));
      if |UsersWithId(s, uid)| == 1 then
        Reply(200, s.(users := users), Some(UsersWithId(s, uid)[0].(name := name.value)))
      else Reply(404, s.(users := users), None)
  }

  /** A rename followed by a profile read returns the renamed row: the
      name the caller set, under the caller's id. */
  lemma UpdateThenGetProfile(s: Store, uid: Id, name: string)
    requires |UsersWithId(s, uid)| == 1
    ensures var u := UpdateProfile(s, uid, Some(name));
            var g := GetProfile(u.store, uid);
            u.code == 200 && g.code == 200 && g.body == u.body && g.body.value.name == name
  {
    UpdateWhereSingle(s.users, UserIdIs(uid), Rename(name));
  }
}

=== FILE: server.dfy ===
/** The application: every request that writes to the store (and login),
    routed through the authentication gate its router mounts — none for the
    account routes, `authRequired` for the caller's own routes,
    `adminRequired` for the admin routes — and the invariants that hold
    across any sequence of such requests. */
module Server {
  import opened Wrappers
  import opened Js
  import opened Store
  import opened Gate
  import Sos
  import SosLifecycle
  import Admin
  import Notifications
  import Profile
  import Accounts

  /** The services the server calls out to: the identity service, the own
      token check, the password hasher and the password check. */
  datatype Env = Env(
    identity: string -> Option<IdentityUser>,
    verifyJwt: string -> Option<Id>,
    hash: string -> string,
    verify: (string, string) -> bool)

  datatype Request =
    // /api/auth (public)
    | RegisterAccount(email: Option<string>, password: Option<string>, name: Option<string>,
                      employeeId: Option<string>, newToken: string)
    | LogIn(email: Option<string>, employeeId: Option<string>, password: Option<string>)
    | VerifyAccount(token: string)
    | ResendVerification(email: Option<string>, newToken: string)
    // /api/profile, /api/notifications, /api/sos (authRequired)
    | CreatePersonalContact(name: Option<string>, email: Option<string>, phone: Option<string>,
                            relationship: Option<string>, isPrimary: bool)
    | UpdatePersonalContact(contactId: Id, contactPatch: Profile.ContactPatch)
    | DeletePersonalContact(contactId: Id)
    | UpdateOwnProfile(newName: Option<string>)
    | MarkNotificationRead(notificationId: Id)
    | StartSos(latitude: Option<Coord>, longitude: Option<Coord>, geocode: Option<string>,
               faults: Sos.FanOutFaults)
    | CancelSos
    // /api/admin (adminRequired)
    | EditUser(userId: Id, userPatch: Admin.UserPatch)
    | ResolveAlert(alertId: Id)
    | AddDirectoryContact(name: Option<string>, email: Option<string>, phone: Option<string>,
                          role: Option<string>)
    | EditDirectoryContact(contactId: Id, directoryPatch: Admin.ContactPatch)

  /** A request as it arrives: its Authorization header, the clock, the route. */
  datatype Call = Call(header: Option<string>, now: Millis, request: Request)

  datatype Outcome = Outcome(code: int, store: Store)

  predicate IsPublic(req: Request) {
    req.RegisterAccount? || req.LogIn? || req.VerifyAccount? || req.ResendVerification?
  }

  predicate IsAdminRoute(req: Request) {
    req.EditUser? || req.ResolveAlert? || req.AddDirectoryContact? || req.EditDirectoryContact?
  }

  function Answer<T>(r: Reply<T>): Outcome {
    Outcome(r.code, r.store)
  }

  /** The account routes. */
  function ServePublic(s: Store, env: Env, now: Millis, req: Request): Outcome
    requires IsPublic(req)
  {
    match req
    case RegisterAccount(email, password, name, employeeId, token) =>
      Answer(Accounts.Register(s, email, password, name, employeeId, env.hash, token, now))
    case LogIn(email, employeeId, password) =>
      Answer(Accounts.Login(s, email, employeeId, password, env.verify))
    case VerifyAccount(token) => Answer(Accounts.VerifyEmail(s, token, now))
    case ResendVerification(email, token) => Answer(Accounts.Resend(s, email, token, now))
  }

  /** The caller's own routes, for the authenticated user `uid`. */
  function ServeUser(s: Store, uid: Id, now: Millis, req: Request): Outcome
    requires !IsPublic(req) && !IsAdminRoute(req)
  {
    match req
    case CreatePersonalContact(name, email, phone, relationship, isPrimary) =>
      Answer(Profile.CreateContact(s, uid, name, email, phone, relationship, isPrimary, now))
    case UpdatePersonalContact(id, p) => Answer(Profile.UpdateContact(s, uid, id, p))
    case DeletePersonalContact(id) => Answer(Profile.DeleteContact(s, uid, id))
    case UpdateOwnProfile(name) => Answer(Profile.UpdateProfile(s, uid, name))
    case MarkNotificationRead(id) => Answer(Notifications.MarkRead(s, uid, id))
    case StartSos(lat, lon, geocode, faults) => Answer(Sos.Start(s, uid, lat, lon, geocode, faults, now))
    case CancelSos => Answer(Sos.Cancel(s, uid, now))
  }

  /** The admin routes; they do not depend on which admin is calling. */
  function ServeAdmin(s: Store, now: Millis, req: Request): Outcome
    requires IsAdminRoute(req)
  {
    match req
    case EditUser(id, p) => Answer(Admin.UpdateUser(s, id, p))
    case ResolveAlert(id) => Answer(Admin.Resolve(s, id, now))
    case AddDirectoryContact(name, email, phone, role) => Answer(Admin.CreateContact(s, name, email, phone, role, now))
    case EditDirectoryContact(id, p) => Answer(Admin.UpdateContact(s, id, p))
  }

  /** One request. A request the gate turns away writes nothing. */
  function Handle(s: Store, env: Env, call: Call): (r: Outcome)
    ensures IsPublic(call.request) ==> r == ServePublic(s, env, call.now, call.request)
    ensures !IsPublic(call.request) && Authenticate(s, call.header, env.identity, env.verifyJwt).Deny? ==>
              r == Outcome(401, s)
    ensures IsAdminRoute(call.request) ==>
              var d := Authenticate(s, call.header, env.identity, env.verifyJwt);
              (d.Pass? && d.principal.role != "admin" ==> r == Outcome(403, s)) &&
              (d.Pass? && d.principal.role == "admin" ==> r == ServeAdmin(s, call.now, call.request))
    ensures !IsPublic(call.request) && !IsAdminRoute(call.request) ==>
              var d := Authenticate(s, call.header, env.identity, env.verifyJwt);
              d.Pass? ==> r == ServeUser(s, d.principal.id, call.now, call.request)
  {
    if IsPublic(call.request) then ServePublic(s, env, call.now, call.request)
    else
      var d := Authenticate(s, call.header, env.identity, env.verifyJwt);
      if IsAdminRoute(call.request) then
        match RequireAdmin(d)
        case Deny(code) => Outcome(code, s)
        case Pass(_) => ServeAdmin(s, call.now, call.request)
      else
        match d
        case Deny(code) => Outcome(code, s)
        case Pass(p) => ServeUser(s, p.id, call.now, call.request)
  }

  /** The requests one after another. */
  function Run(s: Store, env: Env, calls: seq<Call>): Store
    decreases |calls|
  {
    if |calls| == 0 then s else Run(Handle(s, env, calls[0]).store, env, calls[1..])
  }

  // ---------------------------------------------------------------------
  // The store invariant

  /** At most one active alert per user, at most one primary personal
      contact per user, and every row's id below the id counter. */
  ghost predicate Consistent(s: Store) {
    SingleActive(s) && SinglePrimary(s) && IdsBelowNext(s)
  }

  /** Routes that change neither alerts nor personal contacts keep the two
      single-row invariants. */
  lemma SameTablesSameCounts(s: Store, t: Store)
    requires t.alerts == s.alerts && t.userContacts == s.userContacts
    requires SingleActive(s) && SinglePrimary(s)
    ensures SingleActive(t) && SinglePrimary(t)
  {
    forall uid
      ensures |ActiveAlertsOf(t, uid)| <= 1 && |PrimaryContactsOf(t, uid)| <= 1
    {
      assert ActiveAlertsOf(t, uid) == ActiveAlertsOf(s, uid);
      assert PrimaryContactsOf(t, uid) == PrimaryContactsOf(s, uid);
    }
  }

  lemma SameAlertsSingleActive(s: Store, t: Store)
    requires t.alerts == s.alerts && SingleActive(s)
    ensures SingleActive(t)
  {
    forall uid
      ensures |ActiveAlertsOf(t, uid)| <= 1
    {
      assert ActiveAlertsOf(t, uid) == ActiveAlertsOf(s, uid);
    }
  }

  lemma SinglePrimaryFrame(s: Store, t: Store)
    requires t.userContacts == s.userContacts && SinglePrimary(s)
    ensures SinglePrimary(t)
  {
    forall uid
      ensures |PrimaryContactsOf(t, uid)| <= 1
    {
      assert PrimaryContactsOf(t, uid) == PrimaryContactsOf(s, uid);
    }
  }

  /** A route that keeps the ids of existing alerts and notifications and
      gives every new one an id below the new counter keeps ids fresh. */
  lemma GrownIdsBelowNext(s: Store, t: Store)
    requires IdsBelowNext(s) && s.nextId <= t.nextId
    requires t.users == s.users && t.contacts == s.contacts && t.userContacts == s.userContacts
    requires |s.alerts| <= |t.alerts| && |s.notifications| <= |t.notifications|
    requires forall i :: 0 <= i < |s.alerts| ==> t.alerts[i].id == s.alerts[i].id
    requires forall i :: |s.alerts| <= i < |t.alerts| ==> t.alerts[i].id < t.nextId
    requires forall i :: 0 <= i < |s.notifications| ==> t.notifications[i] == s.notifications[i]
    requires forall i :: |s.notifications| <= i < |t.notifications| ==> t.notifications[i].id < t.nextId
    ensures IdsBelowNext(t)
  {
  }

  /** Resolve keeps every id and hands out the counter to its one notification. */
  lemma ResolveKeepsIds(s: Store, id: Id, now: Millis)
    requires IdsBelowNext(s)
    ensures IdsBelowNext(Admin.Resolve(s, id, now).store)
  {
    var t := Admin.Resolve(s, id, now).store;
    forall i | 0 <= i < |t.notifications|
      ensures t.notifications[i].id < t.nextId
    {
      if i < |s.notifications| {
        assert t.notifications[i] == t.notifications[..|s.notifications|][i];
      }
    }
  }

  lemma PublicKeepsConsistent(s: Store, env: Env, now: Millis, req: Request)
    requires IsPublic(req) && Consistent(s)
    ensures Consistent(ServePublic(s, env, now, req).store)
  {
    var t := ServePublic(s, env, now, req).store;
    SameTablesSameCounts(s, t);
  }

  lemma CreatePersonalContactKeepsConsistent(s: Store, uid: Id, name: Option<string>, email: Option<string>,
                                             phone: Option<string>, relationship: Option<string>,
                                             isPrimary: bool, now: Millis)
    requires Consistent(s)
    ensures Consistent(Profile.CreateContact(s, uid, name, email, phone, relationship, isPrimary, now).store)
  {
    var t := Profile.CreateContact(s, uid, name, email, phone, relationship, isPrimary, now).store;
    Profile.CreateKeepsSinglePrimary(s, uid, name, email, phone, relationship, isPrimary, now);
    SameAlertsSingleActive(s, t);
  }

  lemma UpdatePersonalContactKeepsConsistent(s: Store, uid: Id, id: Id, p: Profile.ContactPatch)
    requires Consistent(s)
    ensures Consistent(Profile.UpdateContact(s, uid, id, p).store)
  {
    Profile.UpdateKeepsSinglePrimary(s, uid, id, p);
    SameAlertsSingleActive(s, Profile.UpdateContact(s, uid, id, p).store);
  }

  lemma DeletePersonalContactKeepsConsistent(s: Store, uid: Id, id: Id)
    requires Consistent(s)
    ensures Consistent(Profile.DeleteContact(s, uid, id).store)
  {
    var t := Profile.DeleteContact(s, uid, id).store;
    Profile.DeleteKeepsSinglePrimary(s, uid, id);
    SameAlertsSingleActive(s, t);
    forall i | 0 <= i < |t.userContacts|
      ensures t.userContacts[i].id < t.nextId
    {
      var j :| 0 <= j < |s.userContacts| && s.userContacts[j] == t.userContacts[i];
    }
  }

  lemma UpdateProfileKeepsConsistent(s: Store, uid: Id, name: Option<string>)
    requires Consistent(s)
    ensures Consistent(Profile.UpdateProfile(s, uid, name).store)
  {
    SameTablesSameCounts(s, Profile.UpdateProfile(s, uid, name).store);
  }

  lemma MarkReadKeepsConsistent(s: Store, uid: Id, id: Id)
    requires Consistent(s)
    ensures Consistent(Notifications.MarkRead(s, uid, id).store)
  {
    SameTablesSameCounts(s, Notifications.MarkRead(s, uid, id).store);
  }

  lemma StartKeepsConsistent(s: Store, uid: Id, lat: Option<Coord>, lon: Option<Coord>, geocode: Option<string>,
                             faults: Sos.FanOutFaults, now: Millis)
    requires Consistent(s)
    ensures Consistent(Sos.Start(s, uid, lat, lon, geocode, faults, now).store)
  {
    SosLifecycle.StartKeepsSingleActive(s, uid, lat, lon, geocode, faults, now);
    SinglePrimaryFrame(s, Sos.Start(s, uid, lat, lon, geocode, faults, now).store);
    StartKeepsIds(s, uid, lat, lon, geocode, faults, now);
  }

  lemma StartKeepsIds(s: Store, uid: Id, lat: Option<Coord>, lon: Option<Coord>, geocode: Option<string>,
                      faults: Sos.FanOutFaults, now: Millis)
    requires IdsBelowNext(s)
    ensures IdsBelowNext(Sos.Start(s, uid, lat, lon, geocode, faults, now).store)
  {
    var t := Sos.Start(s, uid, lat, lon, geocode, faults, now).store;
    if t != s {
      PrefixKept(s.alerts, t.alerts);
      PrefixKept(s.notifications, t.notifications);
      GrownIdsBelowNext(s, t);
    }
  }

  lemma CancelKeepsConsistent(s: Store, uid: Id, now: Millis)
    requires Consistent(s)
    ensures Consistent(Sos.Cancel(s, uid, now).store)
  {
    SosLifecycle.CancelKeepsSingleActive(s, uid, now);
    SinglePrimaryFrame(s, Sos.Cancel(s, uid, now).store);
    CancelKeepsIds(s, uid, now);
  }

  lemma CancelKeepsIds(s: Store, uid: Id, now: Millis)
    requires IdsBelowNext(s)
    ensures IdsBelowNext(Sos.Cancel(s, uid, now).store)
  {
    var t := Sos.Cancel(s, uid, now).store;
    if t.notifications != s.notifications {
      PrefixKept(s.notifications, t.notifications);
      GrownIdsBelowNext(s, t);
    }
  }

  /** A sequence that starts with `xs` holds `xs`'s rows at their places. */
  lemma PrefixKept<T>(xs: seq<T>, ys: seq<T>)
    requires |xs| <= |ys| && ys[..|xs|] == xs
    ensures forall i :: 0 <= i < |xs| ==> ys[i] == xs[i]
  {
    forall i | 0 <= i < |xs|
      ensures ys[i] == xs[i]
    {
      assert ys[i] == ys[..|xs|][i];
    }
  }

  lemma UserKeepsConsistent(s: Store, uid: Id, now: Millis, req: Request)
    requires !IsPublic(req) && !IsAdminRoute(req) && Consistent(s)
    ensures Consistent(ServeUser(s, uid, now, req).store)
  {
    if req.MarkNotificationRead? || req.StartSos? || req.CancelSos? {
      AlertRouteKeepsConsistent(s, uid, now, req);
    } else {
      ProfileRouteKeepsConsistent(s, uid, now, req);
    }
  }

  lemma ProfileRouteKeepsConsistent(s: Store, uid: Id, now: Millis, req: Request)
    requires req.CreatePersonalContact? || req.UpdatePersonalContact? || req.DeletePersonalContact? ||
             req.UpdateOwnProfile?
    requires Consistent(s)
    ensures Consistent(ServeUser(s, uid, now, req).store)
  {
    match req
    case CreatePersonalContact(name, email, phone, relationship, isPrimary) =>
      CreatePersonalContactKeepsConsistent(s, uid, name, email, phone, relationship, isPrimary, now);
    case UpdatePersonalContact(id, p) => UpdatePersonalContactKeepsConsistent(s, uid, id, p);
    case DeletePersonalContact(id) => DeletePersonalContactKeepsConsistent(s, uid, id);
    case UpdateOwnProfile(name) => UpdateProfileKeepsConsistent(s, uid, name);
  }

  lemma AlertRouteKeepsConsistent(s: Store, uid: Id, now: Millis, req: Request)
    requires req.MarkNotificationRead? || req.StartSos? || req.CancelSos?
    requires Consistent(s)
    ensures Consistent(ServeUser(s, uid, now, req).store)
  {
    if req.StartSos? {
      StartRouteKeepsConsistent(s, uid, now, req);
    } else if req.CancelSos? {
      CancelRouteKeepsConsistent(s, uid, now, req);
    } else {
      MarkReadKeepsConsistent(s, uid, req.notificationId);
    }
  }

  lemma StartRouteKeepsConsistent(s: Store, uid: Id, now: Millis, req: Request)
    requires req.StartSos? && Consistent(s)
    ensures Consistent(ServeUser(s, uid, now, req).store)
  {
    StartKeepsConsistent(s, uid, req.latitude, req.longitude, req.geocode, req.faults, now);
  }

  lemma CancelRouteKeepsConsistent(s: Store, uid: Id, now: Millis, req: Request)
    requires req.CancelSos? && Consistent(s)
    ensures Consistent(ServeUser(s, uid, now, req).store)
  {
    CancelKeepsConsistent(s, uid, now);
  }

  lemma ResolveKeepsConsistent(s: Store, id: Id, now: Millis)
    requires Consistent(s)
    ensures Consistent(Admin.Resolve(s, id, now).store)
  {
    Admin.ResolveKeepsSingleActive(s, id, now);
    ResolveKeepsIds(s, id, now);
    SinglePrimaryFrame(s, Admin.Resolve(s, id, now).store);
  }

  lemma EditUserKeepsConsistent(s: Store, id: Id, p: Admin.UserPatch)
    requires Consistent(s)
    ensures Consistent(Admin.UpdateUser(s, id, p).store)
  {
    SameTablesSameCounts(s, Admin.UpdateUser(s, id, p).store);
  }

  lemma AddDirectoryContactKeepsConsistent(s: Store, name: Option<string>, email: Option<string>,
                                           phone: Option<string>, role: Option<string>, now: Millis)
    requires Consistent(s)
    ensures Consistent(Admin.CreateContact(s, name, email, phone, role, now).store)
  {
    SameTablesSameCounts(s, Admin.CreateContact(s, name, email, phone, role, now).store);
  }

  lemma EditDirectoryContactKeepsConsistent(s: Store, id: Id, p: Admin.ContactPatch)
    requires Consistent(s)
    ensures Consistent(Admin.UpdateContact(s, id, p).store)
  {
    SameTablesSameCounts(s, Admin.UpdateContact(s, id, p).store);
  }

  lemma AdminKeepsConsistent(s: Store, now: Millis, req: Request)
    requires IsAdminRoute(req) && Consistent(s)
    ensures Consistent(ServeAdmin(s, now, req).store)
  {
    match req
    case EditUser(id, p) => EditUserKeepsConsistent(s, id, p);
    case ResolveAlert(id) => ResolveKeepsConsistent(s, id, now);
    case AddDirectoryContact(name, email, phone, role) =>
      AddDirectoryContactKeepsConsistent(s, name, email, phone, role, now);
    case EditDirectoryContact(id, p) => EditDirectoryContactKeepsConsistent(s, id, p);
  }

  /** Every request keeps the store consistent. */
  lemma HandleKeepsConsistent(s: Store, env: Env, call: Call)
    requires Consistent(s)
    ensures Consistent(Handle(s, env, call).store)
  {
    var d := Authenticate(s, call.header, env.identity, env.verifyJwt);
    if IsPublic(call.request) {
      PublicKeepsConsistent(s, env, call.now, call.request);
    } else if IsAdminRoute(call.request) {
      if d.Pass? && d.principal.role == "admin" {
        AdminKeepsConsistent(s, call.now, call.request);
      }
    } else if d.Pass? {
      UserKeepsConsistent(s, d.principal.id, call.now, call.request);
    }
  }

  /** Any sequence of requests keeps the store consistent: no user ever has
      two active alerts or two primary contacts. */
  lemma {:induction false} RunKeepsConsistent(s: Store, env: Env, calls: seq<Call>)
    requires Consistent(s)
    ensures Consistent(Run(s, env, calls))
    decreases |calls|
  {
    if |calls| > 0 {
      HandleKeepsConsistent(s, env, calls[0]);
      RunKeepsConsistent(Handle(s, env, calls[0]).store, env, calls[1..]);
    }
  }

  /** The empty store is consistent. */
  lemma EmptyConsistent()
    ensures Consistent(Store([], [], [], [], [], [], [], 0))
  {
    var e := Store([], [], [], [], [], [], [], 0);
    forall uid
      ensures |ActiveAlertsOf(e, uid)| <= 1 && |PrimaryContactsOf(e, uid)| <= 1
    {
    }
  }

  // ---------------------------------------------------------------------
  // The gate

  /** The account routes do not look at the Authorization header. */
  lemma PublicIgnoresHeader(s: Store, env: Env, h1: Option<string>, h2: Option<string>, now: Millis, req: Request)
    requires IsPublic(req)
    ensures Handle(s, env, Call(h1, now, req)) == Handle(s, env, Call(h2, now, req))
  {
  }

  /** A request without a bearer token is refused with 401 on every
      protected route and writes nothing. */
  lemma NoTokenNoWrite(s: Store, env: Env, now: Millis, req: Request)
    requires !IsPublic(req)
    ensures Handle(s, env, Call(None, now, req)) == Outcome(401, s)
  {
  }

  /** A principal whose role is not exactly "admin" changes nothing through
      the admin routes. */
  lemma OnlyAdminsAdminister(s: Store, env: Env, call: Call)
    requires IsAdminRoute(call.request)
    requires Handle(s, env, call).store != s
    ensures var d := Authenticate(s, call.header, env.identity, env.verifyJwt);
            d.Pass? && d.principal.role == "admin"
  {
  }
}

=== FILE: sorting.dfy ===
/** Ordering of query results: `.order(col, { ascending: false })`, possibly
    twice (a major and a minor column). Rows are ranked by a pair of integers
    and listed highest rank first. The store does not promise an order among
    rows of equal rank, and neither does this model. */
module Sorting {

  datatype Rank = Rank(major: int, minor: int)

  /** `a` may be listed before `b`: higher major column, or equal major column
      and higher-or-equal minor column. */
  predicate AtLeast(a: Rank, b: Rank) {
    a.major > b.major || (a.major == b.major && a.minor >= b.minor)
  }

  predicate Descending<T>(xs: seq<T>, rank: T -> Rank) {
    forall i, j :: 0 <= i < j < |xs| ==> AtLeast(rank(xs[i]), rank(xs[j]))
  }

  /** Inserts `x` into a descending list, keeping it descending. */
  function InsertDesc<T>(x: T, xs: seq<T>, rank: T -> Rank): (r: seq<T>)
    requires Descending(xs, rank)
    ensures Descending(r, rank)
    ensures multiset(r) == multiset(xs) + multiset{x}
    decreases |xs|
  {
    if |xs| == 0 then [x]
    else if AtLeast(rank(x), rank(xs[0])) then [x] + xs
    else
      var rest := InsertDesc(x, xs[1..], rank);
      assert xs == [xs[0]] + xs[1..];
      HeadOutranks(xs[0], x, xs[1..], rest, rank);
      ConsDescending(xs[0], rest, rank);
      [xs[0]] + rest
  }

  /** A head that outranks `x` and a descending tail outranks any
      rearrangement of the tail with `x` added. */
  lemma HeadOutranks<T>(h: T, x: T, tail: seq<T>, rest: seq<T>, rank: T -> Rank)
    requires Descending([h] + tail, rank) && !AtLeast(rank(x), rank(h))
    requires multiset(rest) == multiset(tail) + multiset{x}
    ensures forall k :: 0 <= k < |rest| ==> AtLeast(rank(h), rank(rest[k]))
  {
    forall k | 0 <= k < |rest|
      ensures AtLeast(rank(h), rank(rest[k]))
    {
      assert rest[k] in multiset(tail) + multiset{x};
      if rest[k] != x {
        assert rest[k] in tail;
        var m :| 0 <= m < |tail| && tail[m] == rest[k];
        assert ([h] + tail)[0] == h && ([h] + tail)[m + 1] == tail[m];
      }
    }
  }

  /** A head that outranks a descending list keeps it descending. */
  lemma ConsDescending<T>(h: T, rest: seq<T>, rank: T -> Rank)
    requires Descending(rest, rank)
    requires forall k :: 0 <= k < |rest| ==> AtLeast(rank(h), rank(rest[k]))
    ensures Descending([h] + rest, rank)
  {
    var r := [h] + rest;
    forall i, j | 0 <= i < j < |r|
      ensures AtLeast(rank(r[i]), rank(r[j]))
    {
      assert r[j] == rest[j - 1];
      if i > 0 {
        assert r[i] == rest[i - 1];
      }
    }
  }

  /** The rows of `xs`, highest rank first: a descending permutation. */
  function SortDesc<T>(xs: seq<T>, rank: T -> Rank): (r: seq<T>)
    ensures Descending(r, rank)
    ensures multiset(r) == multiset(xs)
    ensures |r| == |xs|
    decreases |xs|
  {
    if |xs| == 0 then []
    else
      assert xs == [xs[0]] + xs[1..];
      InsertDesc(xs[0], SortDesc(xs[1..], rank), rank)
  }

  /** A permutation holds the same rows. */
  lemma SameRows<T>(xs: seq<T>, ys: seq<T>)
    requires multiset(xs) == multiset(ys)
    ensures forall i :: 0 <= i < |xs| ==> xs[i] in ys
    ensures forall i :: 0 <= i < |ys| ==> ys[i] in xs
  {
    forall i | 0 <= i < |xs|
      ensures xs[i] in ys
    {
      assert xs[i] in multiset(ys);
    }
    forall i | 0 <= i < |ys|
      ensures ys[i] in xs
    {
      assert ys[i] in multiset(xs);
    }
  }
}

=== FILE: sos.dfy ===
/** The SOS routes (`POST /start`, `POST /cancel`, `GET /active`) and the
    fan-out helper that Start calls once an alert row exists. */
module Sos {
  import opened Wrappers
  import opened Js
  import opened Store

  const ActivatedTitle := "SOS Activated"
  const ActivatedMessage := "Your SOS alert has been activated and emergency contacts have been notified."
  const AdminTitle := "SOS Alert Activated"
  const AdminMessagePrefix := "An employee has activated an SOS alert. Location: "
  const CancelledTitle := "SOS Cancelled"
  const CancelledMessage := "Your SOS alert has been cancelled."

  datatype Location = Location(latitude: Coord, longitude: Coord)

  /** The JSON the SOS routes answer with. */
  datatype AlertView = AlertView(
    id: Id,
    userId: Id,
    status: AlertStatus,
    location: Option<Location>,
    address: Option<string>,
    startedAt: Millis,
    resolvedAt: Option<Millis>)

  /** The response shape: a location only when both stored coordinates are truthy. */
  function View(a: Alert): (v: AlertView)
    ensures v.id == a.id && v.userId == a.userId && v.status == a.status
    ensures v.location.Some? <==> TruthyCoord(a.latitude) && TruthyCoord(a.longitude)
    ensures v.location.Some? ==> v.location.value == Location(a.latitude.value, a.longitude.value)
  {
    AlertView(
      a.id, a.userId, a.status,
      if TruthyCoord(a.latitude) && TruthyCoord(a.longitude)
      then Some(Location(a.latitude.value, a.longitude.value)) else None,
      a.address, a.startedAt, a.resolvedAt)
  }

  // ---------------------------------------------------------------------
  // Fan-out

  /** The store calls of the fan-out that can come back with an error.
      supabase-js reports such errors in its result instead of throwing, so
      the helper carries on past each of them. */
  datatype FanOutFaults = FanOutFaults(
    contactsQueryFails: bool,
    recipientInsertFails: bool,
    userQueryFails: bool,
    adminQueryFails: bool,
    adminInsertFails: bool)

  /** `emergency_contacts where is_active = true` */
  function ActiveContacts(s: Store): seq<Contact> {
    Where(s.contacts, (c: Contact) => c.isActive)
  }

  /** The active contacts an email goes to: those with a non-empty address. */
  function EmailTargets(s: Store): seq<Contact> {
    Where(ActiveContacts(s), (c: Contact) => Truthy(c.email))
  }

  /** `users where role = 'admin'` */
  function Admins(s: Store): seq<User> {
    Where(s.users, (u: User) => u.role == "admin")
  }

  /** `user?.name || 'Employee'` for the `.single()` lookup of the alerting user. */
  function UserName(s: Store, uid: Id): string {
    match Single(UsersWithId(s, uid))
    case Some(u) => if u.name != "" then u.name else "Employee"
    case None => "Employee"
  }

  /** The sender name the emails carry: a failed user lookup leaves `user`
      null, so the fallback applies. */
  function SenderName(s: Store, uid: Id, faults: FanOutFaults): (r: string)
    ensures faults.userQueryFails ==> r == "Employee"
    ensures r != ""
  {
    if faults.userQueryFails then "Employee" else UserName(s, uid)
  }

  /** Step 1: `insert into sos_alert_recipients`, one unsent row per contact. */
  function WriteIntents(s: Store, alertId: Id, cs: seq<Contact>, fails: bool): (r: Store)
    ensures r == s.(recipients := r.recipients)
    ensures fails ==> r.recipients == s.recipients
    ensures !fails ==> |r.recipients| == |s.recipients| + |cs|
    ensures |s.recipients| <= |r.recipients| && r.recipients[..|s.recipients|] == s.recipients
    ensures forall k :: 0 <= k < |r.recipients| - |s.recipients| ==>
              r.recipients[|s.recipients| + k] == Recipient(alertId, cs[k].id, false, None)
  {
    if fails then s
    else s.(recipients := s.recipients + seq(|cs|, i requires 0 <= i < |cs| => Recipient(alertId, cs[i].id, false, None)))
  }

  /** Step 2: one email per target, in contact order. */
  function SendEmails(s: Store, targets: seq<Contact>, userName: string, location: string, alertId: Id): (r: Store)
    ensures r == s.(outbox := r.outbox)
    ensures |r.outbox| == |s.outbox| + |targets| && r.outbox[..|s.outbox|] == s.outbox
    ensures forall k :: 0 <= k < |targets| ==>
              r.outbox[|s.outbox| + k] == SosEmail(targets[k].email.GetOr(""), targets[k].name, userName, location, alertId)
  {
    s.(outbox := s.outbox + seq(|targets|, i requires 0 <= i < |targets| =>
      SosEmail(targets[i].email.GetOr(""), targets[i].name, userName, location, alertId)))
  }

  function AdminMessage(location: string): string {
    AdminMessagePrefix + (if location != "" then location else "Unknown")
  }

  /** Step 3: `insert into notifications`, one `sos` row per admin, with fresh ids. */
  function NotifyAdmins(s: Store, admins: seq<User>, alertId: Id, location: string, fails: bool, now: Millis): (r: Store)
    ensures r == s.(notifications := r.notifications, nextId := r.nextId)
    ensures fails ==> r == s
    ensures !fails ==> |r.notifications| == |s.notifications| + |admins|
    ensures |s.notifications| <= |r.notifications| && r.notifications[..|s.notifications|] == s.notifications
    ensures r.nextId == s.nextId + (|r.notifications| - |s.notifications|)
    ensures forall k :: 0 <= k < |r.notifications| - |s.notifications| ==>
              r.notifications[|s.notifications| + k] ==
              Notification(s.nextId + k, admins[k].id, Some(alertId), AdminTitle, AdminMessage(location), SosNote, false, now)
  {
    if fails || |admins| == 0 then s
    else
      s.(notifications := s.notifications + seq(|admins|, i requires 0 <= i < |admins| =>
           Notification(s.nextId + i, admins[i].id, Some(alertId), AdminTitle, AdminMessage(location), SosNote, false, now)),
         nextId := s.nextId + |admins|)
  }

  /** The fan-out returns before doing anything when the contact query
      fails or finds no active contact. */
  predicate FanOutSkipped(s: Store, faults: FanOutFaults) {
    faults.contactsQueryFails || |ActiveContacts(s)| == 0
  }

  /** `notifyEmergencyContacts`: one delivery intent per active contact, an
      email to each active contact with an address, one in-app notification
      per admin. Nothing in it can fail the caller. */
  function FanOut(s: Store, alertId: Id, uid: Id, location: string, faults: FanOutFaults, now: Millis): (r: Store)
    ensures r.alerts == s.alerts && r.users == s.users && r.contacts == s.contacts
    ensures r.userContacts == s.userContacts
    // the early return also skips the admin notifications
    ensures FanOutSkipped(s, faults) ==> r == s
    // delivery intents: appended, one per active contact, never marked sent
    ensures |s.recipients| <= |r.recipients| && r.recipients[..|s.recipients|] == s.recipients
    ensures forall i :: |s.recipients| <= i < |r.recipients| ==>
              !r.recipients[i].notificationSent && r.recipients[i].notifiedAt.None? && r.recipients[i].alertId == alertId
    ensures !FanOutSkipped(s, faults) && !faults.recipientInsertFails ==>
              |r.recipients| == |s.recipients| + |ActiveContacts(s)| &&
              forall k :: 0 <= k < |ActiveContacts(s)| ==>
                r.recipients[|s.recipients| + k].contactId == ActiveContacts(s)[k].id
    ensures faults.recipientInsertFails ==> r.recipients == s.recipients
    // emails: one per active contact with a non-empty address, whatever the store errors
    ensures |s.outbox| <= |r.outbox| && r.outbox[..|s.outbox|] == s.outbox
    ensures !FanOutSkipped(s, faults) ==>
              |r.outbox| == |s.outbox| + |EmailTargets(s)| &&
              forall k :: 0 <= k < |EmailTargets(s)| ==>
                r.outbox[|s.outbox| + k] == SosEmail(EmailTargets(s)[k].email.value, EmailTargets(s)[k].name,
                                                      SenderName(s, uid, faults), location, alertId)
    // admin notifications: one `sos` notification per admin, with fresh ids
    ensures |s.notifications| <= |r.notifications| && r.notifications[..|s.notifications|] == s.notifications
    ensures r.nextId == s.nextId + (|r.notifications| - |s.notifications|)
    ensures forall i :: |s.notifications| <= i < |r.notifications| ==> s.nextId <= r.notifications[i].id < r.nextId
    ensures !FanOutSkipped(s, faults) && !faults.adminQueryFails && !faults.adminInsertFails ==>
              |r.notifications| == |s.notifications| + |Admins(s)| &&
              forall k :: 0 <= k < |Admins(s)| ==>
                var n := r.notifications[|s.notifications| + k];
                n.id == s.nextId + k && n.userId == Admins(s)[k].id && n.alertId == Some(alertId) &&
                n.title == AdminTitle && n.kind == SosNote && !n.isRead
    ensures faults.adminQueryFails || faults.adminInsertFails ==> r.notifications == s.notifications
  {
    if FanOutSkipped(s, faults) then s
    else
      var s1 := WriteIntents(s, alertId, ActiveContacts(s), faults.recipientInsertFails);
      var s2 := SendEmails(s1, EmailTargets(s), SenderName(s, uid, faults), location, alertId);
      var admins := if faults.adminQueryFails then [] else Admins(s);
      NotifyAdmins(s2, admins, alertId, location, faults.adminInsertFails, now)
  }

  // ---------------------------------------------------------------------
  // Routes

  /** The address stored with a new alert: the geocoder is asked only when
      both coordinates are truthy, and its failure (None) leaves it null. */
  function StartAddress(lat: Option<Coord>, lon: Option<Coord>, geocode: Option<string>): Option<string> {
    if TruthyCoord(lat) && TruthyCoord(lon) then geocode else None
  }

  /** `address || `${latitude}, ${longitude}``, the location text of the fan-out. */
  function StartLocation(address: Option<string>, lat: Option<Coord>, lon: Option<Coord>): string {
    if Truthy(address) then address.value else CoordText(lat) + ", " + CoordText(lon)
  }

  /** The alert Start is about to insert. */
  function NewAlert(s: Store, uid: Id, lat: Option<Coord>, lon: Option<Coord>, geocode: Option<string>, now: Millis): Alert {
    Alert(s.nextId, uid, CoordOrNull(lat), CoordOrNull(lon), StartAddress(lat, lon, geocode), Active, now, now, None)
  }

  /** The store with the new alert inserted and the counter advanced. */
  function Opened(s: Store, alert: Alert): Store {
    s.(alerts := s.alerts + [alert], nextId := s.nextId + 1)
  }

  /** The writes of a start that passed the conflict check: the alert
      insert, the fan-out, and the caller's own confirmation, in that order. */
  function Launched(s: Store, alert: Alert, location: string, faults: FanOutFaults, now: Millis): Store {
    Notify(FanOut(Opened(s, alert), alert.id, alert.userId, location, faults, now),
           alert.userId, Some(alert.id), ActivatedTitle, ActivatedMessage, SosNote, now)
  }

  lemma LaunchedTables(s: Store, alert: Alert, location: string, faults: FanOutFaults, now: Millis)
    ensures var r := Launched(s, alert, location, faults, now);
            r.alerts == s.alerts + [alert] &&
            r.users == s.users && r.contacts == s.contacts && r.userContacts == s.userContacts
  {
  }

  lemma LaunchedRecipients(s: Store, alert: Alert, location: string, faults: FanOutFaults, now: Millis)
    ensures var r := Launched(s, alert, location, faults, now);
            |s.recipients| <= |r.recipients| && r.recipients[..|s.recipients|] == s.recipients &&
            forall i :: |s.recipients| <= i < |r.recipients| ==>
              r.recipients[i].alertId == alert.id && !r.recipients[i].notificationSent
  {
  }

  lemma LaunchedConfirmation(s: Store, alert: Alert, location: string, faults: FanOutFaults, now: Millis)
    ensures var r := Launched(s, alert, location, faults, now);
            |r.notifications| > |s.notifications| &&
            var n := r.notifications[|r.notifications| - 1];
            n.userId == alert.userId && n.alertId == Some(alert.id) && n.title == ActivatedTitle &&
            n.kind == SosNote && !n.isRead
  {
  }

  lemma LaunchedNotes(s: Store, alert: Alert, location: string, faults: FanOutFaults, now: Millis)
    ensures var r := Launched(s, alert, location, faults, now);
            r.nextId > s.nextId && |s.notifications| <= |r.notifications| &&
            r.notifications[..|s.notifications|] == s.notifications &&
            forall i :: |s.notifications| <= i < |r.notifications| ==> s.nextId <= r.notifications[i].id < r.nextId
  {
    var s2 := FanOut(Opened(s, alert), alert.id, alert.userId, location, faults, now);
    NotifyAfter(s, s2, alert.userId, Some(alert.id), ActivatedTitle, ActivatedMessage, SosNote, now);
  }

  /** The delivery intents a start writes: one per active contact, unless
      the fan-out returned early or the insert failed. */
  lemma LaunchedIntents(s: Store, alert: Alert, location: string, faults: FanOutFaults, now: Millis)
    ensures var r := Launched(s, alert, location, faults, now);
            (FanOutSkipped(s, faults) || faults.recipientInsertFails ==> r.recipients == s.recipients) &&
            (!FanOutSkipped(s, faults) && !faults.recipientInsertFails ==>
               |r.recipients| == |s.recipients| + |ActiveContacts(s)| &&
               forall k :: 0 <= k < |ActiveContacts(s)| ==>
                 r.recipients[|s.recipients| + k] == Recipient(alert.id, ActiveContacts(s)[k].id, false, None))
  {
    assert ActiveContacts(Opened(s, alert)) == ActiveContacts(s);
  }

  /** The emails a start sends: one per active contact with an address,
      unless the fan-out returned early. */
  lemma LaunchedEmails(s: Store, alert: Alert, location: string, faults: FanOutFaults, now: Millis)
    ensures var r := Launched(s, alert, location, faults, now);
            (FanOutSkipped(s, faults) ==> r.outbox == s.outbox) &&
            (!FanOutSkipped(s, faults) ==>
               |r.outbox| == |s.outbox| + |EmailTargets(s)| &&
               forall k :: 0 <= k < |EmailTargets(s)| ==>
                 r.outbox[|s.outbox| + k] == SosEmail(EmailTargets(s)[k].email.value, EmailTargets(s)[k].name,
                                                      SenderName(s, alert.userId, faults), location, alert.id))
  {
    assert ActiveContacts(Opened(s, alert)) == ActiveContacts(s);
    assert SenderName(Opened(s, alert), alert.userId, faults) == SenderName(s, alert.userId, faults);
  }

  /** The admin notifications a start writes ahead of the caller's own:
      one per admin, unless a step before them failed or returned early. */
  lemma LaunchedAdminNotes(s: Store, alert: Alert, location: string, faults: FanOutFaults, now: Millis, r: Store)
    requires alert.id == s.nextId
    requires r == Launched(s, alert, location, faults, now)
    ensures (FanOutSkipped(s, faults) || faults.adminQueryFails || faults.adminInsertFails ==>
               |r.notifications| == |s.notifications| + 1) &&
            (!FanOutSkipped(s, faults) && !faults.adminQueryFails && !faults.adminInsertFails ==>
               |r.notifications| == |s.notifications| + |Admins(s)| + 1 &&
               forall k :: 0 <= k < |Admins(s)| ==>
                 var n := r.notifications[|s.notifications| + k];
                 n.id == s.nextId + 1 + k && n.userId == Admins(s)[k].id && n.alertId == Some(s.nextId) &&
                 n.title == AdminTitle && n.kind == SosNote && !n.isRead)
  {
    assert ActiveContacts(Opened(s, alert)) == ActiveContacts(s);
    assert Admins(Opened(s, alert)) == Admins(s);
  }

  /** A notification written after other fresh-id writes keeps their
      prefix and their ids' range. */
  lemma NotifyAfter(s: Store, s2: Store, uid: Id, alertId: Option<Id>, title: string, message: string,
                    kind: NoteKind, now: Millis)
    requires |s.notifications| <= |s2.notifications| && s2.notifications[..|s.notifications|] == s.notifications
    requires s.nextId <= s2.nextId
    requires forall i :: |s.notifications| <= i < |s2.notifications| ==> s.nextId <= s2.notifications[i].id < s2.nextId
    ensures var r := Notify(s2, uid, alertId, title, message, kind, now);
            r.nextId > s.nextId && r.notifications[..|s.notifications|] == s.notifications &&
            forall i :: |s.notifications| <= i < |r.notifications| ==> s.nextId <= r.notifications[i].id < r.nextId
  {
    var r := Notify(s2, uid, alertId, title, message, kind, now);
    assert forall i :: |s.notifications| <= i < |s2.notifications| ==> r.notifications[i] == s2.notifications[i];
  }

  /** `POST /sos/start`. `geocode` is what the reverse geocoder would answer
      for the coordinates (None for an error or an empty result). */
  function Start(s: Store, uid: Id, lat: Option<Coord>, lon: Option<Coord>, geocode: Option<string>,
                 faults: FanOutFaults, now: Millis): (r: Reply<AlertView>)
    ensures r.code == 409 || r.code == 201
    ensures r.code == 409 <==> |ActiveAlertsOf(s, uid)| == 1
    ensures r.code == 409 ==> r.store == s && r.body.None?
    // exactly one new alert: active, owned by the caller, with a fresh id
    ensures r.code == 201 ==>
              |r.store.alerts| == |s.alerts| + 1 && r.store.alerts[..|s.alerts|] == s.alerts &&
              var a := r.store.alerts[|s.alerts|];
              a.id == s.nextId && a.userId == uid && a.status == Active && a.resolvedAt.None? &&
              a.createdAt == now && a.latitude == CoordOrNull(lat) && a.longitude == CoordOrNull(lon) &&
              r.body == Some(View(a))
    // the geocoder only matters when both coordinates are truthy
    ensures r.code == 201 ==>
              r.store.alerts[|s.alerts|].address == (if TruthyCoord(lat) && TruthyCoord(lon) then geocode else None)
    // the caller's own confirmation is written last, whatever the fan-out did
    ensures r.code == 201 ==>
              |r.store.notifications| > |s.notifications| &&
              var n := r.store.notifications[|r.store.notifications| - 1];
              n.userId == uid && n.alertId == Some(s.nextId) && n.title == ActivatedTitle &&
              n.kind == SosNote && !n.isRead
    // delivery intents are only appended, for this alert, and never marked sent
    ensures |s.recipients| <= |r.store.recipients| && r.store.recipients[..|s.recipients|] == s.recipients
    ensures forall i :: |s.recipients| <= i < |r.store.recipients| ==>
              r.store.recipients[i].alertId == s.nextId && !r.store.recipients[i].notificationSent
    // every row written gets a fresh id
    ensures r.code == 201 ==>
              r.store.nextId > s.nextId && |s.notifications| <= |r.store.notifications| &&
              r.store.notifications[..|s.notifications|] == s.notifications &&
              forall i :: |s.notifications| <= i < |r.store.notifications| ==>
                s.nextId <= r.store.notifications[i].id < r.store.nextId
    ensures r.store.users == s.users && r.store.contacts == s.contacts && r.store.userContacts == s.userContacts
  {
    if Single(ActiveAlertsOf(s, uid)).Some? then Reply(409, s, None)
    else
      var alert := NewAlert(s, uid, lat, lon, geocode, now);
      var location := StartLocation(alert.address, lat, lon);
      LaunchedTables(s, alert, location, faults, now);
      LaunchedRecipients(s, alert, location, faults, now);
      LaunchedConfirmation(s, alert, location, faults, now);
      LaunchedNotes(s, alert, location, faults, now);
      var r := Launched(s, alert, location, faults, now);
      assert r.alerts[..|s.alerts|] == s.alerts && r.alerts[|s.alerts|] == alert;
      Reply(201, r, Some(View(alert)))
  }

  /** `POST /sos/cancel`. The update is keyed by the alert's id; its
      `.select().single()` reports 500 if that id is not unique. */
  function Cancel(s: Store, uid: Id, now: Millis): (r: Reply<AlertView>)
    ensures r.code in {200, 404, 500}
    ensures r.code == 404 <==> |ActiveAlertsOf(s, uid)| != 1
    ensures r.code == 404 ==> r.store == s && r.body.None?
    ensures r.code != 404 ==>
              var a := ActiveAlertsOf(s, uid)[0];
              |r.store.alerts| == |s.alerts| &&
              (forall i :: 0 <= i < |s.alerts| && s.alerts[i].id == a.id ==>
                 r.store.alerts[i] == s.alerts[i].(status := Cancelled, resolvedAt := Some(now))) &&
              (forall i :: 0 <= i < |s.alerts| && s.alerts[i].id != a.id ==> r.store.alerts[i] == s.alerts[i])
    // after a cancel the caller has no active alert left
    ensures r.code != 404 ==> ActiveAlertsOf(r.store, uid) == []
    ensures r.code == 200 ==>
              |r.store.notifications| == |s.notifications| + 1 &&
              r.store.notifications[..|s.notifications|] == s.notifications &&
              var n := r.store.notifications[|s.notifications|];
              n.userId == uid && n.alertId == Some(ActiveAlertsOf(s, uid)[0].id) &&
              n.title == CancelledTitle && n.kind == InfoNote && !n.isRead &&
              n.id == s.nextId && r.store.nextId == s.nextId + 1
    ensures r.code != 200 ==> r.store.notifications == s.notifications && r.store.nextId == s.nextId
    ensures r.code == 200 ==>
              r.body.Some? && r.body.value.status == Cancelled && r.body.value.resolvedAt == Some(now)
    ensures r.store.users == s.users && r.store.contacts == s.contacts && r.store.userContacts == s.userContacts
    ensures r.store.recipients == s.recipients
  {
    match Single(ActiveAlertsOf(s, uid))
    case None => Reply(404, s, None)
    case Some(a) =>
      var s1 := s.(alerts := SetAlertStatus(s.alerts, a.id, Cancelled, now));
      assert ActiveAlertsOf(s1, uid) == [] by {
        WhereNone(s1.alerts, ActiveFor(uid));
      }
      if |AlertsWithId(s1, a.id)| != 1 then Reply(500, s1, None)
      else
        var updated := AlertsWithId(s1, a.id)[0];
        Reply(200, Notify(s1, uid, Some(updated.id), CancelledTitle, CancelledMessage, InfoNote, now), Some(View(updated)))
  }

  /** `GET /sos/active`: the caller's active alert, or a JSON null (not an error). */
  function GetActive(s: Store, uid: Id): (r: Option<AlertView>)
    ensures r.None? <==> |ActiveAlertsOf(s, uid)| != 1
    ensures r.Some? ==>
              var a := ActiveAlertsOf(s, uid)[0];
              a in s.alerts && a.userId == uid && a.status == Active && r.value == View(a) &&
              (r.value.location.Some? <==> TruthyCoord(a.latitude) && TruthyCoord(a.longitude))
  {
    match Single(ActiveAlertsOf(s, uid))
    case None => None
    case Some(a) => Some(View(a))
  }
}

=== FILE: sos_lifecycle.dfy ===
/** What the SOS routes guarantee across requests that run one after
    another: at most one active alert per user, Start and Cancel undo each
    other's blocking, and the fan-out never decides the outcome of Start. */
module SosLifecycle {
  import opened Wrappers
  import opened Js
  import opened Store
  import opened Sos

  /** The alert table after a successful Start: the old rows plus the new one. */
  lemma StartAppends(s: Store, uid: Id, lat: Option<Coord>, lon: Option<Coord>, geocode: Option<string>,
                     faults: FanOutFaults, now: Millis)
    requires Start(s, uid, lat, lon, geocode, faults, now).code == 201
    ensures var r := Start(s, uid, lat, lon, geocode, faults, now);
            r.store.alerts == s.alerts + [r.store.alerts[|s.alerts|]]
  {
    var r := Start(s, uid, lat, lon, geocode, faults, now);
    assert r.store.alerts == r.store.alerts[..|s.alerts|] + [r.store.alerts[|s.alerts|]];
  }

  /** Start keeps every user at no more than one active alert, and after a
      successful Start the new alert is the caller's only active one. */
  lemma {:induction false} StartKeepsSingleActive(s: Store, uid: Id, lat: Option<Coord>, lon: Option<Coord>,
                                                  geocode: Option<string>, faults: FanOutFaults, now: Millis)
    requires SingleActive(s)
    ensures SingleActive(Start(s, uid, lat, lon, geocode, faults, now).store)
    ensures var r := Start(s, uid, lat, lon, geocode, faults, now);
            r.code == 201 ==> ActiveAlertsOf(r.store, uid) == [r.store.alerts[|s.alerts|]]
  {
    var r := Start(s, uid, lat, lon, geocode, faults, now);
    if r.code == 201 {
      NoActiveAlert(s, uid);
      StartAppends(s, uid, lat, lon, geocode, faults, now);
      var a := r.store.alerts[|s.alerts|];
      forall u
        ensures |ActiveAlertsOf(r.store, u)| <= 1
        ensures u == uid ==> ActiveAlertsOf(r.store, u) == [a]
      {
        WhereAppend(s.alerts, [a], ActiveFor(u));
        assert |ActiveAlertsOf(s, u)| <= 1;
        if u == uid {
          assert ActiveAlertsOf(s, u) == [];
        }
      }
    }
  }

  /** A second Start by the same user is refused with 409. */
  lemma StartTwiceConflicts(s: Store, uid: Id, lat: Option<Coord>, lon: Option<Coord>, geocode: Option<string>,
                            faults: FanOutFaults, now: Millis,
                            lat2: Option<Coord>, lon2: Option<Coord>, geocode2: Option<string>,
                            faults2: FanOutFaults, later: Millis)
    requires SingleActive(s)
    requires Start(s, uid, lat, lon, geocode, faults, now).code == 201
    ensures var r := Start(s, uid, lat, lon, geocode, faults, now);
            var r2 := Start(r.store, uid, lat2, lon2, geocode2, faults2, later);
            r2.code == 409 && r2.store == r.store
  {
    StartKeepsSingleActive(s, uid, lat, lon, geocode, faults, now);
  }

  /** After a successful Start, GetActive answers with the alert Start returned. */
  lemma GetActiveAfterStart(s: Store, uid: Id, lat: Option<Coord>, lon: Option<Coord>, geocode: Option<string>,
                            faults: FanOutFaults, now: Millis)
    requires SingleActive(s)
    requires Start(s, uid, lat, lon, geocode, faults, now).code == 201
    ensures var r := Start(s, uid, lat, lon, geocode, faults, now);
            GetActive(r.store, uid) == r.body
  {
    StartKeepsSingleActive(s, uid, lat, lon, geocode, faults, now);
  }

  /** Under the invariant, GetActive's null means the user has no active
      alert at all, never that a lookup failed. */
  lemma GetActiveNullMeansNone(s: Store, uid: Id)
    requires SingleActive(s)
    ensures GetActive(s, uid).None? <==>
            forall i :: 0 <= i < |s.alerts| ==> !(s.alerts[i].userId == uid && s.alerts[i].status == Active)
  {
    if GetActive(s, uid).None? {
      NoActiveAlert(s, uid);
    } else {
      assert ActiveAlertsOf(s, uid)[0] in s.alerts;
    }
  }

  /** Cancel never adds an active alert for anyone. */
  lemma CancelKeepsSingleActive(s: Store, uid: Id, now: Millis)
    requires SingleActive(s)
    ensures SingleActive(Cancel(s, uid, now).store)
  {
    var r := Cancel(s, uid, now);
    if r.code != 404 {
      var a := ActiveAlertsOf(s, uid)[0];
      SetTerminalStatus(s, a.id, Cancelled, now);
      assert r.store.alerts == SetAlertStatus(s.alerts, a.id, Cancelled, now);
      forall u
        ensures |ActiveAlertsOf(r.store, u)| <= 1
      {
        assert |ActiveAlertsOf(s, u)| <= 1;
        assert ActiveAlertsOf(r.store, u) == ActiveAlertsOf(s.(alerts := r.store.alerts), u);
      }
    }
  }

  /** Once Cancel has gone through, the user may start again. */
  lemma CancelThenStart(s: Store, uid: Id, now: Millis, lat: Option<Coord>, lon: Option<Coord>,
                        geocode: Option<string>, faults: FanOutFaults, later: Millis)
    requires Cancel(s, uid, now).code == 200
    ensures Start(Cancel(s, uid, now).store, uid, lat, lon, geocode, faults, later).code == 201
  {
  }

  /** Start then Cancel: the cancel succeeds on the alert the start made,
      and leaves the caller with no active alert. */
  lemma {:induction false} StartThenCancel(s: Store, uid: Id, lat: Option<Coord>, lon: Option<Coord>,
                                           geocode: Option<string>, faults: FanOutFaults, t1: Millis, t2: Millis)
    requires SingleActive(s) && IdsBelowNext(s)
    requires Start(s, uid, lat, lon, geocode, faults, t1).code == 201
    ensures var r2 := Cancel(Start(s, uid, lat, lon, geocode, faults, t1).store, uid, t2);
            && r2.code == 200
            && SingleActive(r2.store)
            && ActiveAlertsOf(r2.store, uid) == []
            && |r2.store.alerts| == |s.alerts| + 1
            && r2.store.alerts[|s.alerts|].status == Cancelled
            && r2.store.alerts[|s.alerts|].id < r2.store.nextId
  {
    var r1 := Start(s, uid, lat, lon, geocode, faults, t1);
    StartKeepsSingleActive(s, uid, lat, lon, geocode, faults, t1);
    StartAppends(s, uid, lat, lon, geocode, faults, t1);
    var a := r1.store.alerts[|s.alerts|];
    assert a.id == s.nextId;
    // the new alert is the only row with its id
    assert AlertsWithId(r1.store, a.id) == [a] by {
      WhereAppend(s.alerts, [a], AlertIdIs(a.id));
      WhereNone(s.alerts, AlertIdIs(a.id));
    }
    CancelSole(r1.store, uid, t2);
    CancelKeepsSingleActive(r1.store, uid, t2);
  }

  /** Cancel succeeds when the caller's one active alert is the only row
      with its id. */
  lemma CancelSole(s: Store, uid: Id, now: Millis)
    requires |ActiveAlertsOf(s, uid)| == 1
    requires |AlertsWithId(s, ActiveAlertsOf(s, uid)[0].id)| == 1
    ensures Cancel(s, uid, now).code == 200
  {
    var a := ActiveAlertsOf(s, uid)[0];
    SetTerminalStatus(s, a.id, Cancelled, now);
    assert Cancel(s, uid, now).store.alerts == SetAlertStatus(s.alerts, a.id, Cancelled, now);
  }

  /** Start, Cancel, Start: the cancel succeeds, the second start succeeds,
      and the two alerts are different rows, the first one cancelled and the
      second one the caller's only active alert. */
  lemma {:induction false} StartCancelStart(s: Store, uid: Id, lat: Option<Coord>, lon: Option<Coord>,
                                            geocode: Option<string>, faults: FanOutFaults,
                                            t1: Millis, t2: Millis, t3: Millis)
    requires SingleActive(s) && IdsBelowNext(s)
    requires Start(s, uid, lat, lon, geocode, faults, t1).code == 201
    ensures var r1 := Start(s, uid, lat, lon, geocode, faults, t1);
            var r2 := Cancel(r1.store, uid, t2);
            var r3 := Start(r2.store, uid, lat, lon, geocode, faults, t3);
            && r2.code == 200
            && r3.code == 201
            && |r3.store.alerts| == |s.alerts| + 2
            && r3.store.alerts[|s.alerts|].id != r3.store.alerts[|s.alerts| + 1].id
            && r3.store.alerts[|s.alerts|].status == Cancelled
            && ActiveAlertsOf(r3.store, uid) == [r3.store.alerts[|s.alerts| + 1]]
  {
    StartThenCancel(s, uid, lat, lon, geocode, faults, t1, t2);
    var r2 := Cancel(Start(s, uid, lat, lon, geocode, faults, t1).store, uid, t2);
    var r3 := Start(r2.store, uid, lat, lon, geocode, faults, t3);
    assert r3.code == 201;
    StartKeepsSingleActive(r2.store, uid, lat, lon, geocode, faults, t3);
    StartAppends(r2.store, uid, lat, lon, geocode, faults, t3);
    assert r3.store.alerts[|s.alerts|] == r2.store.alerts[|s.alerts|];
    assert r3.store.alerts[|s.alerts| + 1].id == r2.store.nextId;
  }

  /** The fan-out's store errors never change what Start answers or which
      alert it creates: alert creation is decoupled from notification. */
  lemma StartIgnoresFanOutFaults(s: Store, uid: Id, lat: Option<Coord>, lon: Option<Coord>,
                                 geocode: Option<string>, f1: FanOutFaults, f2: FanOutFaults, now: Millis)
    ensures var r1 := Start(s, uid, lat, lon, geocode, f1, now);
            var r2 := Start(s, uid, lat, lon, geocode, f2, now);
            r1.code == r2.code && r1.body == r2.body && r1.store.alerts == r2.store.alerts
  {
  }

  /** A start that passed the conflict check is the alert insert followed
      by the fan-out and the confirmation. */
  lemma StartLaunches(s: Store, uid: Id, lat: Option<Coord>, lon: Option<Coord>, geocode: Option<string>,
                      faults: FanOutFaults, now: Millis)
    requires |ActiveAlertsOf(s, uid)| != 1
    ensures Start(s, uid, lat, lon, geocode, faults, now).store ==
            Launched(s, NewAlert(s, uid, lat, lon, geocode, now),
                     StartLocation(StartAddress(lat, lon, geocode), lat, lon), faults, now)
  {
  }

  /** A successful start writes one unsent delivery intent per active
      contact, for the new alert; none when the fan-out returned early or
      the insert failed. */
  lemma StartWritesIntents(s: Store, uid: Id, lat: Option<Coord>, lon: Option<Coord>, geocode: Option<string>,
                           faults: FanOutFaults, now: Millis)
    requires |ActiveAlertsOf(s, uid)| != 1
    ensures var r := Start(s, uid, lat, lon, geocode, faults, now).store;
            (FanOutSkipped(s, faults) || faults.recipientInsertFails ==> r.recipients == s.recipients) &&
            (!FanOutSkipped(s, faults) && !faults.recipientInsertFails ==>
               |r.recipients| == |s.recipients| + |ActiveContacts(s)| &&
               forall k :: 0 <= k < |ActiveContacts(s)| ==>
                 r.recipients[|s.recipients| + k] == Recipient(s.nextId, ActiveContacts(s)[k].id, false, None))
  {
    StartLaunches(s, uid, lat, lon, geocode, faults, now);
    LaunchedIntents(s, NewAlert(s, uid, lat, lon, geocode, now),
                    StartLocation(StartAddress(lat, lon, geocode), lat, lon), faults, now);
  }

  /** A successful start emails every active contact that has an address,
      naming the caller and the alert's location; none when the fan-out
      returned early. */
  lemma StartEmailsContacts(s: Store, uid: Id, lat: Option<Coord>, lon: Option<Coord>, geocode: Option<string>,
                            faults: FanOutFaults, now: Millis)
    requires |ActiveAlertsOf(s, uid)| != 1
    ensures var r := Start(s, uid, lat, lon, geocode, faults, now).store;
            var location := StartLocation(StartAddress(lat, lon, geocode), lat, lon);
            (FanOutSkipped(s, faults) ==> r.outbox == s.outbox) &&
            (!FanOutSkipped(s, faults) ==>
               |r.outbox| == |s.outbox| + |EmailTargets(s)| &&
               forall k :: 0 <= k < |EmailTargets(s)| ==>
                 r.outbox[|s.outbox| + k] == SosEmail(EmailTargets(s)[k].email.value, EmailTargets(s)[k].name,
                                                      SenderName(s, uid, faults), location, s.nextId))
  {
    StartLaunches(s, uid, lat, lon, geocode, faults, now);
    LaunchedEmails(s, NewAlert(s, uid, lat, lon, geocode, now),
                   StartLocation(StartAddress(lat, lon, geocode), lat, lon), faults, now);
  }

  /** A successful start gives every admin one unread `sos` notification
      about the new alert, before the caller's own; none when the fan-out
      returned early or an admin step failed. */
  lemma StartNotifiesAdmins(s: Store, uid: Id, lat: Option<Coord>, lon: Option<Coord>, geocode: Option<string>,
                            faults: FanOutFaults, now: Millis)
    requires |ActiveAlertsOf(s, uid)| != 1
    ensures FanOutSkipped(s, faults) || faults.adminQueryFails || faults.adminInsertFails ==>
              |Start(s, uid, lat, lon, geocode, faults, now).store.notifications| == |s.notifications| + 1
    ensures !FanOutSkipped(s, faults) && !faults.adminQueryFails && !faults.adminInsertFails ==>
              var r := Start(s, uid, lat, lon, geocode, faults, now).store;
              |r.notifications| == |s.notifications| + |Admins(s)| + 1 &&
              forall k :: 0 <= k < |Admins(s)| ==>
                var n := r.notifications[|s.notifications| + k];
                n.id == s.nextId + 1 + k && n.userId == Admins(s)[k].id && n.alertId == Some(s.nextId) &&
                n.title == AdminTitle && n.kind == SosNote && !n.isRead
  {
    if FanOutSkipped(s, faults) || faults.adminQueryFails || faults.adminInsertFails {
      StartSkipsAdminNotes(s, uid, lat, lon, geocode, faults, now);
    } else {
      StartWritesAdminNotes(s, uid, lat, lon, geocode, faults, now);
    }
  }

  /** The first half of StartNotifiesAdmins: only the caller's note. */
  lemma StartSkipsAdminNotes(s: Store, uid: Id, lat: Option<Coord>, lon: Option<Coord>, geocode: Option<string>,
                             faults: FanOutFaults, now: Millis)
    requires |ActiveAlertsOf(s, uid)| != 1
    requires FanOutSkipped(s, faults) || faults.adminQueryFails || faults.adminInsertFails
    ensures |Start(s, uid, lat, lon, geocode, faults, now).store.notifications| == |s.notifications| + 1
  {
    StartLaunches(s, uid, lat, lon, geocode, faults, now);
    LaunchedAdminNotes(s, NewAlert(s, uid, lat, lon, geocode, now),
                       StartLocation(StartAddress(lat, lon, geocode), lat, lon), faults, now,
                       Start(s, uid, lat, lon, geocode, faults, now).store);
  }

  /** The second half of StartNotifiesAdmins: one note per admin. */
  lemma StartWritesAdminNotes(s: Store, uid: Id, lat: Option<Coord>, lon: Option<Coord>, geocode: Option<string>,
                              faults: FanOutFaults, now: Millis)
    requires |ActiveAlertsOf(s, uid)| != 1
    requires !FanOutSkipped(s, faults) && !faults.adminQueryFails && !faults.adminInsertFails
    ensures var r := Start(s, uid, lat, lon, geocode, faults, now).store;
            |r.notifications| == |s.notifications| + |Admins(s)| + 1 &&
            forall k :: 0 <= k < |Admins(s)| ==>
              var n := r.notifications[|s.notifications| + k];
              n.id == s.nextId + 1 + k && n.userId == Admins(s)[k].id && n.alertId == Some(s.nextId) &&
              n.title == AdminTitle && n.kind == SosNote && !n.isRead
  {
    StartLaunches(s, uid, lat, lon, geocode, faults, now);
    LaunchedAdminNotes(s, NewAlert(s, uid, lat, lon, geocode, now),
                       StartLocation(StartAddress(lat, lon, geocode), lat, lon), faults, now,
                       Start(s, uid, lat, lon, geocode, faults, now).store);
  }
}

=== FILE: store.dfy ===
/** The database the route handlers talk to, as one immutable value: one
    sequence of rows per table, in insertion order, plus the counter that
    hands out fresh row ids and a log of the emails the handlers send.
    Filtered selects are `Where`, PostgREST's `.single()` is `Single`. */
module Store {
  import opened Wrappers

  type Id = nat

  /** Milliseconds on the server clock. */
  type Millis = nat

  /** `sos_alerts.status` */
  datatype AlertStatus = Active | Cancelled | Resolved

  function StatusName(st: AlertStatus): string {
    match st
    case Active => "active"
    case Cancelled => "cancelled"
    case Resolved => "resolved"
  }

  /** A row of `sos_alerts`. */
  datatype Alert = Alert(
    id: Id,
    userId: Id,
    latitude: Option<int>,
    longitude: Option<int>,
    address: Option<string>,
    status: AlertStatus,
    startedAt: Millis,
    createdAt: Millis,
    resolvedAt: Option<Millis>)

  /** A row of `sos_alert_recipients`: the delivery intent for one contact. */
  datatype Recipient = Recipient(
    alertId: Id,
    contactId: Id,
    notificationSent: bool,
    notifiedAt: Option<Millis>)

  /** `notifications.type` */
  datatype NoteKind = SosNote | InfoNote

  /** A row of `notifications`. */
  datatype Notification = Notification(
    id: Id,
    userId: Id,
    alertId: Option<Id>,
    title: string,
    message: string,
    kind: NoteKind,
    isRead: bool,
    createdAt: Millis)

  /** A row of `emergency_contacts`: a directory-level contact managed by admins. */
  datatype Contact = Contact(
    id: Id,
    name: string,
    email: Option<string>,
    phone: Option<string>,
    role: string,
    isActive: bool,
    createdAt: Millis)

  /** A row of `user_emergency_contacts`: a personal contact of one user. */
  datatype UserContact = UserContact(
    id: Id,
    userId: Id,
    name: string,
    email: Option<string>,
    phone: Option<string>,
    relationship: Option<string>,
    isPrimary: bool,
    createdAt: Millis)

  /** A row of `users`. The role is a free string column; "" stands for null. */
  datatype User = User(
    id: Id,
    email: Option<string>,
    employeeId: Option<string>,
    name: string,
    passwordHash: string,
    emailVerified: bool,
    verificationToken: Option<string>,
    tokenExpiry: Option<Millis>,
    role: string,
    createdAt: Millis)

  /** An email handed to the mail helper (which only logs it). */
  datatype Email =
    | SosEmail(to: string, contactName: string, userName: string, location: string, alertId: Id)
    | VerificationEmail(to: string, token: string, name: Option<string>)

  datatype Store = Store(
    users: seq<User>,
    alerts: seq<Alert>,
    recipients: seq<Recipient>,
    notifications: seq<Notification>,
    contacts: seq<Contact>,
    userContacts: seq<UserContact>,
    outbox: seq<Email>,
    nextId: Id)

  /** The outcome of one request: HTTP status, the store afterwards, and the
      success body (None for an error, or for a JSON null). */
  datatype Reply<T> = Reply(code: int, store: Store, body: Option<T>)

  // ---------------------------------------------------------------------
  // Queries

  /** `select ... where p`, keeping table order. */
  function Where<T>(rows: seq<T>, p: T -> bool): (r: seq<T>)
    ensures |r| <= |rows|
    ensures forall i :: 0 <= i < |r| ==> r[i] in rows && p(r[i])
    ensures forall i :: 0 <= i < |rows| && p(rows[i]) ==> rows[i] in r
    decreases |rows|
  {
    if |rows| == 0 then []
    else (if p(rows[0]) then [rows[0]] else []) + Where(rows[1..], p)
  }

  /** `.single()`: the row when exactly one matched, otherwise null. */
  function Single<T>(rows: seq<T>): (r: Option<T>)
    ensures r.Some? <==> |rows| == 1
    ensures r.Some? ==> r.value == rows[0] && r.value in rows
  {
    if |rows| == 1 then Some(rows[0]) else None
  }

  /** A `.single()` over a filter that yields a row names the one row of
      the table that passes the filter: every passing row is that row. */
  lemma SingleWhere<T>(rows: seq<T>, p: T -> bool)
    requires Single(Where(rows, p)).Some?
    ensures var v := Single(Where(rows, p)).value;
            v in rows && p(v) && forall i :: 0 <= i < |rows| && p(rows[i]) ==> rows[i] == v
  {
    var w := Where(rows, p);
    assert |w| == 1 && w[0] in rows && p(w[0]);
    forall i | 0 <= i < |rows| && p(rows[i])
      ensures rows[i] == w[0]
    {
      assert rows[i] in w;
    }
  }

  lemma {:induction false} WhereAppend<T>(a: seq<T>, b: seq<T>, p: T -> bool)
    ensures Where(a + b, p) == Where(a, p) + Where(b, p)
    decreases |a|
  {
    if |a| == 0 {
      assert a + b == b;
    } else {
      assert (a + b)[1..] == a[1..] + b;
      WhereAppend(a[1..], b, p);
    }
  }

  /** Counting matches row by row: if every row of `ys` that satisfies `p`
      sits where `xs` has a row satisfying `q`, `ys` has no more `p`-rows
      than `xs` has `q`-rows. */
  lemma {:induction false} WhereLe<T, U>(xs: seq<T>, ys: seq<U>, q: T -> bool, p: U -> bool)
    requires |xs| == |ys|
    requires forall i :: 0 <= i < |ys| && p(ys[i]) ==> q(xs[i])
    ensures |Where(ys, p)| <= |Where(xs, q)|
    decreases |xs|
  {
    if |xs| > 0 {
      WhereLe(xs[1..], ys[1..], q, p);
    }
  }

  /** Rows that neither sequence's version matches may differ; everything
      the filter keeps must be equal, and then the results are equal. */
  lemma {:induction false} WhereSame<T>(xs: seq<T>, ys: seq<T>, p: T -> bool)
    requires |xs| == |ys|
    requires forall i :: 0 <= i < |xs| && (p(xs[i]) || p(ys[i])) ==> xs[i] == ys[i]
    ensures Where(xs, p) == Where(ys, p)
    decreases |xs|
  {
    if |xs| > 0 {
      WhereSame(xs[1..], ys[1..], p);
    }
  }

  /** Filtering first can only drop matches. */
  lemma {:induction false} WhereOfWhere<T>(xs: seq<T>, q: T -> bool, p: T -> bool)
    ensures |Where(Where(xs, q), p)| <= |Where(xs, p)|
    decreases |xs|
  {
    if |xs| > 0 {
      WhereOfWhere(xs[1..], q, p);
      var head := if q(xs[0]) then [xs[0]] else [];
      WhereAppend(head, Where(xs[1..], q), p);
    }
  }

  /** Two different rows that both match make `.single()` see two rows. */
  lemma {:induction false} WhereTwo<T>(rows: seq<T>, p: T -> bool, i: nat, j: nat)
    requires i < j < |rows| && p(rows[i]) && p(rows[j])
    ensures |Where(rows, p)| >= 2
    decreases |rows|
  {
    if i == 0 {
      assert rows[j] == rows[1..][j - 1];
      assert rows[j] in Where(rows[1..], p);
    } else {
      WhereTwo(rows[1..], p, i - 1, j - 1);
    }
  }

  /** If `q` picks out exactly the row at `j` in `xs`, and every `p`-row of
      `ys` sits at a `q`-row of `xs`, then `ys[j]`, when it matches `p`, is
      the only `p`-row of `ys`. */
  lemma {:induction false} WhereStaysSingle<T, U>(xs: seq<T>, ys: seq<U>, q: T -> bool, p: U -> bool, j: nat)
    requires |xs| == |ys| && j < |xs|
    requires |Where(xs, q)| == 1 && q(xs[j]) && p(ys[j])
    requires forall i :: 0 <= i < |ys| && p(ys[i]) ==> q(xs[i])
    ensures Where(ys, p) == [ys[j]]
  {
    WhereLe(xs, ys, q, p);
    assert ys[j] in Where(ys, p);
    var w := Where(ys, p);
    var m :| 0 <= m < |ys| && ys[m] == w[0];
    if m != j {
      WhereTwo(xs, q, if m < j then m else j, if m < j then j else m);
    }
  }

  /** No row that matches gives an empty result. */
  lemma WhereNone<T>(rows: seq<T>, p: T -> bool)
    requires forall i :: 0 <= i < |rows| ==> !p(rows[i])
    ensures Where(rows, p) == []
  {
  }

  // ---------------------------------------------------------------------
  // Named selects

  function ActiveFor(uid: Id): Alert -> bool {
    (a: Alert) => a.userId == uid && a.status == Active
  }

  /** `sos_alerts where user_id = uid and status = 'active'` */
  function ActiveAlertsOf(s: Store, uid: Id): seq<Alert> {
    Where(s.alerts, ActiveFor(uid))
  }

  function AlertIdIs(id: Id): Alert -> bool {
    (a: Alert) => a.id == id
  }

  /** `sos_alerts where id = id` */
  function AlertsWithId(s: Store, id: Id): seq<Alert> {
    Where(s.alerts, AlertIdIs(id))
  }

  function PrimaryFor(uid: Id): UserContact -> bool {
    (c: UserContact) => c.userId == uid && c.isPrimary
  }

  /** `user_emergency_contacts where user_id = uid and is_primary` */
  function PrimaryContactsOf(s: Store, uid: Id): seq<UserContact> {
    Where(s.userContacts, PrimaryFor(uid))
  }

  function UserIdIs(id: Id): User -> bool {
    (u: User) => u.id == id
  }

  /** `users where id = id` */
  function UsersWithId(s: Store, id: Id): seq<User> {
    Where(s.users, UserIdIs(id))
  }

  function EmailIs(email: string): User -> bool {
    (u: User) => u.email == Some(email)
  }

  /** `users where email = email` */
  function UsersWithEmail(s: Store, email: string): seq<User> {
    Where(s.users, EmailIs(email))
  }

  // ---------------------------------------------------------------------
  // Updates

  /** `update ... set ... where p`: every matching row is rewritten by `f`. */
  function UpdateWhere<T>(rows: seq<T>, p: T -> bool, f: T -> T): (r: seq<T>)
    ensures |r| == |rows|
    ensures forall i :: 0 <= i < |rows| ==> r[i] == if p(rows[i]) then f(rows[i]) else rows[i]
  {
    seq(|rows|, i requires 0 <= i < |rows| => if p(rows[i]) then f(rows[i]) else rows[i])
  }

  /** An update that matches nothing changes nothing. */
  lemma UpdateWhereNone<T>(rows: seq<T>, p: T -> bool, f: T -> T)
    requires |Where(rows, p)| == 0
    ensures UpdateWhere(rows, p, f) == rows
  {
  }

  /** When exactly one row matches and the update keeps it matching, the
      update's `.select().single()` returns that row, rewritten. */
  lemma UpdateWhereSingle<T>(rows: seq<T>, p: T -> bool, f: T -> T)
    requires |Where(rows, p)| == 1
    requires forall i :: 0 <= i < |rows| ==> p(f(rows[i])) == p(rows[i])
    ensures Where(UpdateWhere(rows, p, f), p) == [f(Where(rows, p)[0])]
  {
    var after := UpdateWhere(rows, p, f);
    var x := Where(rows, p)[0];
    var j :| 0 <= j < |rows| && rows[j] == x;
    WhereStaysSingle(rows, after, p, p, j);
  }

  function CloseAs(st: AlertStatus, now: Millis): Alert -> Alert {
    (a: Alert) => a.(status := st, resolvedAt := Some(now))
  }

  /** `update sos_alerts set status = st, resolved_at = now where id = id` */
  function SetAlertStatus(alerts: seq<Alert>, id: Id, st: AlertStatus, now: Millis): (r: seq<Alert>)
    ensures |r| == |alerts|
    ensures forall i :: 0 <= i < |r| ==> r[i].id == alerts[i].id && r[i].userId == alerts[i].userId
    ensures forall i :: 0 <= i < |r| && alerts[i].id == id ==> r[i] == alerts[i].(status := st, resolvedAt := Some(now))
    ensures forall i :: 0 <= i < |r| && alerts[i].id != id ==> r[i] == alerts[i]
  {
    UpdateWhere(alerts, AlertIdIs(id), CloseAs(st, now))
  }

  /** `insert into notifications`, one unread row with a fresh id. */
  function Notify(s: Store, uid: Id, alertId: Option<Id>, title: string, message: string, kind: NoteKind, now: Millis): (r: Store)
    ensures r == s.(notifications := r.notifications, nextId := s.nextId + 1)
    ensures |r.notifications| == |s.notifications| + 1 && r.notifications[..|s.notifications|] == s.notifications
    ensures r.notifications[|s.notifications|] == Notification(s.nextId, uid, alertId, title, message, kind, false, now)
  {
    s.(notifications := s.notifications + [Notification(s.nextId, uid, alertId, title, message, kind, false, now)],
       nextId := s.nextId + 1)
  }

  /** Moving alerts to a terminal status never adds an active alert, and
      leaves the number of alerts carrying any given id as it was. */
  lemma SetTerminalStatus(s: Store, id: Id, st: AlertStatus, now: Millis)
    requires st != Active
    ensures forall uid :: |ActiveAlertsOf(s.(alerts := SetAlertStatus(s.alerts, id, st, now)), uid)| <= |ActiveAlertsOf(s, uid)|
    ensures forall k :: |AlertsWithId(s.(alerts := SetAlertStatus(s.alerts, id, st, now)), k)| == |AlertsWithId(s, k)|
  {
    var after := SetAlertStatus(s.alerts, id, st, now);
    forall uid
      ensures |Where(after, ActiveFor(uid))| <= |Where(s.alerts, ActiveFor(uid))|
    {
      WhereLe(s.alerts, after, ActiveFor(uid), ActiveFor(uid));
    }
    forall k
      ensures |Where(after, AlertIdIs(k))| == |Where(s.alerts, AlertIdIs(k))|
    {
      WhereLe(s.alerts, after, AlertIdIs(k), AlertIdIs(k));
      WhereLe(after, s.alerts, AlertIdIs(k), AlertIdIs(k));
    }
  }

  // ---------------------------------------------------------------------
  // The invariants sequential requests keep

  /** Each user has at most one active alert. */
  ghost predicate SingleActive(s: Store) {
    forall uid :: |ActiveAlertsOf(s, uid)| <= 1
  }

  /** Each user has at most one primary personal contact. */
  ghost predicate SinglePrimary(s: Store) {
    forall uid :: |PrimaryContactsOf(s, uid)| <= 1
  }

  /** Every row id is below the counter, so the next id handed out is fresh. */
  ghost predicate IdsBelowNext(s: Store) {
    && (forall i :: 0 <= i < |s.alerts| ==> s.alerts[i].id < s.nextId)
    && (forall i :: 0 <= i < |s.notifications| ==> s.notifications[i].id < s.nextId)
    && (forall i :: 0 <= i < |s.contacts| ==> s.contacts[i].id < s.nextId)
    && (forall i :: 0 <= i < |s.userContacts| ==> s.userContacts[i].id < s.nextId)
    && (forall i :: 0 <= i < |s.users| ==> s.users[i].id < s.nextId)
  }

  /** Under SingleActive, a `.single()` that finds nothing means there is
      no active alert at all. */
  lemma NoActiveAlert(s: Store, uid: Id)
    requires SingleActive(s)
    requires Single(ActiveAlertsOf(s, uid)).None?
    ensures ActiveAlertsOf(s, uid) == []
    ensures forall i :: 0 <= i < |s.alerts| ==> !(s.alerts[i].userId == uid && s.alerts[i].status == Active)
  {
    assert |ActiveAlertsOf(s, uid)| <= 1;
  }
}

=== FILE: wrappers.dfy ===
/** The optional value used for nullable columns, absent request fields and
    lookups that may find nothing. */
module Wrappers {

  datatype Option<+T> = None | Some(value: T) {

    /** The wrapped value, or `default` when there is none. */
    function GetOr(default: T): T {
      match this
      case Some(v) => v
      case None() => default
    }
  }
}
